=== FILE: README.md ===
# tu-abogado: the case and actuation core, in Dafny

tu-abogado is a web client for a law office. Lawyers keep **cases** in it, and
each case holds **actuaciones**: procedural steps with a name, a description
and the entities involved. Files are stored per case, in the storage bucket
under `caseId/timestamp-name` (`src/lib/actuationsApi.ts:76`); no row records
their keys. The data lives in a hosted backend: a `cases` table, an
`actuaciones` table and an `actuaciones` storage bucket. The client's own logic sits between the
forms and that backend, and this project models it:

- **`CasesApi`** (`src/lib/casesApi.ts`)
  - `listCases` normalises loosely shaped rows into full case records. `demandados` always becomes a list, and a missing field gets its default.
  - `createCase` builds an insert payload with a whitelist of keys.
  - `updateCase` and `deleteCase` work on the `cases` table.
- **`CaseForm`** (`CaseForm.tsx`)
  - The defendants are shown as one `", "`-joined field and parsed back with split / trim / drop-empty.
  - The form has a zod schema, the values it opens with, and the payload it submits.
- **`ActuationsApi`** (`src/lib/actuationsApi.ts`)
  - The insert payload with its `??` defaults, the update patch, and delete.
  - The listing of one case's actuaciones, newest first.
  - The storage key `caseId/timestamp-name`, uploaded without overwrite.
- **`ActuationsDialog`** (`ActuationsDialog.tsx`): a class holding the row being edited and the form's draft. Its handlers submit (create or update), load a row, delete, reset on close, and upload the selected files one after another.
- **`CasesPage`** (`CasesPage.tsx`): a class holding whether the case form is open and which case it edits. The submit handler updates the edited case or creates a new one stamped with the signed-in lawyer.

Supporting modules:
- `Wrappers` provides `Option` and `Result`.
- `JsValues` holds JavaScript values: rows are `map<string, Json>` and an absent key is `undefined`. It also defines `??`, truthiness, `String(v)` and UTF-16 length.
- `Backend` holds the three stores as fields of one `Store` object. Both tables are keyed by the record's own `id` (`Store.Valid`), and every operation keeps that.

Every backend call takes a `fault: Option<string>` argument, so that every outcome is covered:
- `Some(message)` means the backend reported an error. The call then changes nothing and returns `Rejected(message)`.
- An insert whose id already exists, or an upload to an existing key, fails with `Conflict`.
- An update that matches no row fails with `NotSingle`, which is what `.single()` does.
- An update whose patch holds an `id` that is not text fails with `BadValue`.

Ids, timestamps and the clock reading `Date.now()` are parameters. The row order the backend returns is a parameter constrained to be a correct listing.

The model keeps three inconsistencies between the form and the case records, as the code has them:
- **Create drops the court name.** The form sends the court name as `juzgado`, but `createCase` copies only `juzgado_nombre`. Every created case therefore has an empty court name (`CasesPage.CreateFromForm`).
- **Edit reads the court from a key records lack.** The edit form reads `juzgado`, which case records do not have, so it opens with that field empty (`CaseForm.EditFormLosesCourt`).
- **Edit blanks the id and timestamps.** The update forwards the whole form payload, so the merged row gets a `juzgado` field, keeps its old `juzgado_nombre`, and has its `id` and timestamps set to `''` (`CasesPage.EditFromForm`). If the backend accepts the patch (see Left out), writing `id` moves the row: the edited case is stored under the key `''` from then on, and editing any other case through the form fails with `Conflict` while that key is taken (`CasesApi.UpdateCase`, `CasesPage.EditMovesToBlankKey`).

A few facts about the code that the model follows:
- Cases are listed newest first by `created_at` (`src/lib/casesApi.ts:30`).
- The case types are `transito`, `civil`, `penal` and `terrorista` (`src/lib/casesApi.ts:7`).
- The case form requires the court, as it requires the plaintiff and the docket number (`CaseForm.tsx:18-22`).

## Model

| member | source | states |
|---|---|---|
| JsValues.Coalesce | src/lib/casesApi.ts:38-46 | `o.k ?? d` keeps a present non-null value (even `''`) and replaces only `null` and `undefined` |
| JsValues.Truthy | src/lib/casesApi.ts:37 | a value is truthy exactly when it is not `null`, `false`, `0` or `''`: `true`, every other number, every non-empty string and every array and object, even an empty one, are truthy |
| JsValues.NatToDecimal | src/lib/actuationsApi.ts:76 | `${Date.now()}` renders as one or more decimal digits, a single digit below ten; with `NatToDecimalLast` the last digit is `n % 10` after the rendering of `n / 10` |
| JsValues.ToStr | src/lib/casesApi.ts:37 | `String(v)` for each kind of non-array value: a string as it is, a number in decimal with a leading `-` when negative, `"null"`, `"true"`/`"false"`, and `"[object Object]"` for an object |
| JsValues.NatToDecimalInjective | src/lib/actuationsApi.ts:76 | distinct clock readings render as distinct decimal strings |
| JsValues.Utf16Length | src/components/organisms/cases/CaseForm/CaseForm.tsx:18-22 | the `.length` zod's `min` checks lies between the number of characters and twice that; it equals the number of characters exactly when none is above U+FFFF, and twice that exactly when all are |
| JsValues.Utf16LengthChar | src/components/organisms/cases/CaseForm/CaseForm.tsx:18-22 | one character is one code unit up to U+FFFF and two above |
| JsValues.Utf16LengthAppend | src/components/organisms/cases/CaseForm/CaseForm.tsx:18-22 | the length of a concatenation is the sum of the lengths, so `.length` is the per-character count summed |
| CasesApi.NormalizeDemandados | src/lib/casesApi.ts:35-37 | the defendants always become an array: an array is kept as is, a truthy scalar becomes `[String(v)]`, a falsy or missing value becomes `[]` |
| CasesApi.NormalizeRow | src/lib/casesApi.ts:33-47 | extra keys are kept; each declared field is present; a present non-null value is kept, a null or missing one becomes its default (`'transito'`, `'regional'`, otherwise `''`) |
| CasesApi.NormalizeTotal | src/lib/casesApi.ts:33-47 | after normalisation every declared field is present and non-null, and `demandados` is an array |
| CasesApi.NormalizeTyped | src/lib/casesApi.ts:33-47 | a row whose columns hold the declared types normalises to a full case record |
| CasesApi.NormalizeIdempotent | src/lib/casesApi.ts:33-47 | normalising twice gives what normalising once gave |
| CasesApi.ListCases | src/lib/casesApi.ts:26-48 | a backend error fails the call with no partial result; otherwise the rows come back in the backend's order, same length, each normalised |
| CasesApi.ListCasesComplete | src/lib/casesApi.ts:26-48 | every case in the table appears, normalised, in a successful listing |
| CasesApi.ListCasesNewestFirst | src/lib/casesApi.ts:27-33 | rows stored with a textual `created_at` come back newest first |
| CasesApi.NormalizeKeepsCreatedAt | src/lib/casesApi.ts:45 | normalisation keeps a stored textual `created_at` |
| CasesApi.ListCasesKeyed | src/lib/casesApi.ts:26-48 | in a table keyed by id, every listed row carries the id it is stored under |
| CasesApi.ListCasesTyped | src/lib/casesApi.ts:33-47 | over a table of well-typed rows, every listed row is a full case record |
| CasesApi.CleanPayload | src/lib/casesApi.ts:53-61 | the insert payload has exactly the seven whitelisted keys; `assigned_lawyer` is copied; `demandados` defaults to `[]`, `tipo` to `'transito'`, `juzgado_tipo` to `'regional'`, the other texts to `''`; id, timestamps and unknown keys are dropped |
| CasesApi.InsertedRow | src/lib/casesApi.ts:63-70 | the stored row is the clean payload plus the backend's id and timestamps |
| CasesApi.CreateCase | src/lib/casesApi.ts:52-71 | on success exactly one new row, the clean payload, is added under the new id; an error or an id clash leaves the table unchanged; `actuaciones` and the bucket are never touched; the table stays keyed by id |
| CasesApi.UpdateCase | src/lib/casesApi.ts:74-84 | the patch is merged unchanged into the one row with the id, and the row is stored under the merged row's `id`; a missing id fails, as do a non-text `id` and an `id` that belongs to another case; no other row, table or bucket changes; the table stays keyed by id |
| CasesApi.DeleteCase | src/lib/casesApi.ts:87-90 | exactly the id is removed from `cases`; `actuaciones` and the bucket are untouched |
| CaseForm.Trim | src/components/organisms/cases/CaseForm/CaseForm.tsx:63 | the result has no JavaScript white space at either end, draws its characters from the input, and an already trimmed text is unchanged |
| CaseForm.TrimIsCut | src/components/organisms/cases/CaseForm/CaseForm.tsx:63 | the result is a slice of the input, and everything cut off before and after it is white space |
| CaseForm.TrimUnique | src/components/organisms/cases/CaseForm/CaseForm.tsx:63 | any trimmed slice of the input with only white space outside it is the trimmed text, so the two lemmas above determine `trim` |
| CaseForm.Join | src/components/organisms/cases/CaseForm/CaseForm.tsx:37 | `join` of no elements is `''` and of one element is that element |
| CaseForm.JoinAppend | src/components/organisms/cases/CaseForm/CaseForm.tsx:37 | each further element adds the separator and itself at the end, which with the two cases above determines `join` |
| CaseForm.TrimLeadingSpace | src/components/organisms/cases/CaseForm/CaseForm.tsx:63 | leading white space does not change the trimmed text |
| CaseForm.Split | src/components/organisms/cases/CaseForm/CaseForm.tsx:62 | splitting on `,` gives at least one piece, and no piece holds a comma |
| CaseForm.SplitJoin | src/components/organisms/cases/CaseForm/CaseForm.tsx:62 | joining the pieces with `,` gives the text back |
| CaseForm.DropEmpty | src/components/organisms/cases/CaseForm/CaseForm.tsx:64 | the filter keeps only non-empty elements of its input, and never more of them |
| CaseForm.TrimAll | src/components/organisms/cases/CaseForm/CaseForm.tsx:63 | `.map((s) => s.trim())`: as many pieces as the input, each the trim of the piece at the same position |
| CaseForm.ParseDemandados | src/components/organisms/cases/CaseForm/CaseForm.tsx:61-64 | there are never more names than comma-separated pieces |
| CaseForm.ParseYieldsNames | src/components/organisms/cases/CaseForm/CaseForm.tsx:61-64 | every parsed defendant is non-empty, trimmed and comma-free |
| CaseForm.ParseEmpty | src/components/organisms/cases/CaseForm/CaseForm.tsx:61 | an empty field parses to no defendants |
| CaseForm.ParseJoin | src/components/organisms/cases/CaseForm/CaseForm.tsx:37-64 | for a list of non-empty, trimmed, comma-free names, parsing its `", "` join gives the list back |
| CaseForm.ParseJoinParse | src/components/organisms/cases/CaseForm/CaseForm.tsx:37-64 | parsing, joining and parsing again gives the first parse |
| CaseForm.Validate | src/components/organisms/cases/CaseForm/CaseForm.tsx:17-23 | the schema accepts exactly when the three required texts are non-empty and `tipo` is one of the four types; the rejected fields are exactly the failing ones; the CSV field defaults to `''` |
| CaseForm.TrimBlank | src/components/organisms/cases/CaseForm/CaseForm.tsx:63 | a text of white space alone trims to `''` |
| CaseForm.BlankTextAccepted | src/components/organisms/cases/CaseForm/CaseForm.tsx:17-23 | any non-empty required texts made only of white space pass the schema, although each trims to `''` |
| CaseForm.InitialText | src/components/organisms/cases/CaseForm/CaseForm.tsx:36-40 | `initial?.k ?? d` for a text field: the record's text if present, otherwise the default |
| CaseForm.Defaults | src/components/organisms/cases/CaseForm/CaseForm.tsx:35-41 | with no record the form opens as `''` texts with `tipo` `'transito'`; the CSV field is the `", "` join only when the record's defendants are an array, otherwise `''` |
| CaseForm.CaseRecordIsFormInitial | src/components/organisms/cases/CaseForm/CaseForm.tsx:29-41 | a listed case record can be passed as the form's `initial` |
| CaseForm.EmptyFormRejected | src/components/organisms/cases/CaseForm/CaseForm.tsx:17-41 | the new-case form as it opens fails on exactly the three required texts |
| CaseForm.DefaultsParseBack | src/components/organisms/cases/CaseForm/CaseForm.tsx:35-64 | opening the form on a case and parsing its CSV field back gives the case's defendants |
| CaseForm.EditFormLosesCourt | src/components/organisms/cases/CaseForm/CaseForm.tsx:39 | opened on a case record without a `juzgado` key, the form fails validation on the court field |
| CaseForm.SubmitPayload | src/components/organisms/cases/CaseForm/CaseForm.tsx:60-80 | the submitted payload copies the form texts as typed, holds the parsed defendants, takes `assigned_lawyer` from the initial record or `''`, and sends `juzgado` (not `juzgado_nombre`) |
| ActuationsApi.CreatePayload | src/lib/actuationsApi.ts:33-38 | the insert payload has exactly `case_id`, `nombre`, `descripcion`, `entidades`; a missing `descripcion` becomes `''`; `entidades` is sent as given, a missing one as `null` |
| ActuationsApi.CreatePayloadNullOnlyWhenMissing | src/lib/actuationsApi.ts:37 | `entidades` is `null` exactly when it was missing; a given `''` stays `''` |
| ActuationsApi.InsertedAct | src/lib/actuationsApi.ts:39-46 | the stored row is the payload with the backend's id and both timestamps |
| ActuationsApi.CreateActuacion | src/lib/actuationsApi.ts:27-47 | on success exactly one row is added under the new id; an error or an id clash changes nothing; `cases` and the bucket are untouched; each row stays stored under its own id |
| ActuationsApi.ApplyPatch | src/lib/actuationsApi.ts:49-63 | the present fields of the patch replace the row's, absent ones keep it; id and timestamps never change |
| ActuationsApi.ApplyPatchIdempotent | src/lib/actuationsApi.ts:53-58 | applying a patch twice equals applying it once, and an empty patch changes nothing |
| ActuationsApi.UpdateActuacion | src/lib/actuationsApi.ts:49-63 | only the row with the id changes, to the patched row; a missing id fails; `cases` and the bucket are untouched |
| ActuationsApi.DeleteActuacion | src/lib/actuationsApi.ts:65-68 | exactly the id is removed from `actuaciones`; a missing id is no error |
| ActuationsApi.ListActuaciones | src/lib/actuationsApi.ts:16-25 | an error fails the call; otherwise every returned row belongs to the case, in `created_at` descending order |
| ActuationsApi.ListActuacionesComplete | src/lib/actuationsApi.ts:16-25 | every row of the case appears in a successful listing |
| ActuationsApi.UploadKey | src/lib/actuationsApi.ts:76 | the key is the case id, `/`, the decimal clock reading, `-` and the file name |
| ActuationsApi.UploadKeyShape | src/lib/actuationsApi.ts:76 | the key starts with `caseId + "/"` and ends with the file name |
| ActuationsApi.UploadKeyInjective | src/lib/actuationsApi.ts:76 | for case ids without `/`, equal keys mean equal case id, clock reading and file name |
| ActuationsApi.UploadKeySameCase | src/lib/actuationsApi.ts:76 | within one case folder, whatever the case id holds, the key determines the clock reading and the file name |
| ActuationsApi.UploadActFile | src/lib/actuationsApi.ts:74-83 | with `upsert: false` a new key is added and returned; an existing key or an error leaves the bucket as it was; the tables are untouched |
| ActuationsDialog.DraftAccepted | src/components/organisms/cases/ActuationsDialog/ActuationsDialog.tsx:43-47 | the schema accepts no empty name, and accepts every name of two or more characters |
| ActuationsDialog.DraftAcceptedIff | src/components/organisms/cases/ActuationsDialog/ActuationsDialog.tsx:43-47 | a draft is accepted exactly when its name has two or more characters, or one character above U+FFFF (two code units); the empty draft is refused |
| ActuationsDialog.CreateInput | src/components/organisms/cases/ActuationsDialog/ActuationsDialog.tsx:108-113 | create sends the dialog's case id and the name, with missing or empty description and entities as `''` |
| ActuationsDialog.EditPatch | src/components/organisms/cases/ActuationsDialog/ActuationsDialog.tsx:115-123 | the update patch holds only `nombre`, `descripcion` and `entidades` (never null), and never `case_id` |
| ActuationsDialog.DialogNeverStoresNull | src/components/organisms/cases/ActuationsDialog/ActuationsDialog.tsx:108-125 | rows created or edited through the dialog never hold `null` entidades, and stay with their case |
| ActuationsDialog.DraftOf | src/components/organisms/cases/ActuationsDialog/ActuationsDialog.tsx:132-139 | the draft `onEdit` loads holds the row's texts, with `null` entidades as `''` |
| ActuationsDialog.EditSaveRoundTrip | src/components/organisms/cases/ActuationsDialog/ActuationsDialog.tsx:115-139 | loading a row and saving it untouched gives the row back, except that `null` entidades becomes `''` |
| ActuationsDialog.Dialog.constructor | src/components/organisms/cases/ActuationsDialog/ActuationsDialog.tsx:53-66 | the dialog starts creating, with the empty draft |
| ActuationsDialog.Dialog.Type | src/components/organisms/cases/ActuationsDialog/ActuationsDialog.tsx:182-207 | typing changes the draft only |
| ActuationsDialog.Dialog.OnSubmit | src/components/organisms/cases/ActuationsDialog/ActuationsDialog.tsx:107-130 | an invalid draft sends nothing; otherwise it updates the edited row or creates one for the dialog's case; success resets to creating with an empty draft; failure keeps the form as it was |
| ActuationsDialog.Dialog.OnEdit | src/components/organisms/cases/ActuationsDialog/ActuationsDialog.tsx:132-139 | the row becomes the edited one and fills the draft |
| ActuationsDialog.Dialog.OnDelete | src/components/organisms/cases/ActuationsDialog/ActuationsDialog.tsx:141-147 | the row is deleted; the form resets only when the deleted id is the edited row's, and is unchanged otherwise or on failure |
| ActuationsDialog.Dialog.SetOpen | src/components/organisms/cases/ActuationsDialog/ActuationsDialog.tsx:159-164 | closing the dialog leaves nothing being edited and an empty draft |
| ActuationsDialog.Dialog.OnFilesSelected | src/components/organisms/cases/ActuationsDialog/ActuationsDialog.tsx:151-157 | files are uploaded in selection order, one key each (`UploadKey` of that file), all new and distinct; the bucket gains exactly those keys; the first failure stops the loop and is returned |
| CasesPage.Rows | src/components/pages/CasesPage/CasesPage.tsx:59 | the table shows the loaded data, or nothing before it has loaded |
| CasesPage.RowsShowEveryCase | src/components/pages/CasesPage/CasesPage.tsx:59 | once loaded, the table shows every case of the table, normalised, one row per case |
| CasesPage.StampLawyer | src/components/pages/CasesPage/CasesPage.tsx:174 | the payload's `assigned_lawyer` becomes the user's id; every other field is kept |
| CasesPage.CreateFromForm | src/components/pages/CasesPage/CasesPage.tsx:169-177 | a case created from the form holds the typed texts, the parsed defendants and the user as lawyer, but an empty `juzgado_nombre`: the typed court is lost |
| CasesPage.EditFromForm | src/components/pages/CasesPage/CasesPage.tsx:169-177 | editing replaces the typed fields and keeps the lawyer; the court lands in `juzgado` while `juzgado_nombre` keeps its value; id and timestamps in the row become `''` |
| CasesPage.EditMovesToBlankKey | src/components/pages/CasesPage/CasesPage.tsx:172 | the edit payload's `id` is the text `''`, so the update stores the case under the key `''` |
| CasesPage.Page.constructor | src/components/pages/CasesPage/CasesPage.tsx:42-43 | the page starts with the form closed and nothing being edited |
| CasesPage.Page.OnCreate | src/components/pages/CasesPage/CasesPage.tsx:61-64 | the form opens with nothing being edited |
| CasesPage.Page.OnEdit | src/components/pages/CasesPage/CasesPage.tsx:65-68 | the form opens on the row |
| CasesPage.Page.OnClose | src/components/pages/CasesPage/CasesPage.tsx:168 | the form closes and the edited case is kept |
| CasesPage.Page.OnDeleteRow | src/components/pages/CasesPage/CasesPage.tsx:151 | the row's id is removed from `cases`; the page state is untouched |
| CasesPage.Page.OnSubmit | src/components/pages/CasesPage/CasesPage.tsx:169-177 | with no user nothing is sent and the form stays; while editing, the edited id is updated with the form as it is and the row moves to the form's `id`; otherwise a case is created with `assigned_lawyer` set to the user; the form closes only on success, and the edited case is kept |

## Left out

- The Supabase SDK, HTTP, row-level security and the storage service are not modelled. The backend is three in-memory stores, and every way it can fail is the `fault` argument.
- The table schema is not modelled, so unknown columns are stored like any other field. The `id` column is taken to hold any text. A backend that refuses the `juzgado` column, or an `id` column typed as a UUID that refuses `''`, shows up only as a `fault`.
- Foreign keys are not modelled: deleting a case leaves its actuaciones, as the client code does nothing about them. Backend triggers are not modelled either, so an update does not touch `updated_at`.
- ActuationsApi.ListActuaciones, CasesApi.ListCases: both take the row order as a parameter constrained to be a valid listing. "Newest first" is lexicographic order on the `created_at` strings, which is chronological order for the backend's fixed-width timestamps. Cases whose stored `created_at` is missing or not text may be listed anywhere. A `data` of `null` without an error (`data ?? []`) is not distinguished from an empty table.
- Ids, timestamps and `Date.now()` are parameters; clock readings are natural numbers.
- react-query caching, invalidation, refetching, loading and `isPending` flags, and the `onChanged` callback are not modelled. They are library behaviour.
- react-hook-form internals are not modelled: a draft is the value of each input. `CaseForm`'s reset on open is modelled only as the values `Defaults` computes.
- Concurrency is not modelled. Handlers run one at a time to completion, so interleaved or double submissions are not covered.
- Rendering is not modelled: dialogs, buttons disabled without a user, and the table columns. `CasesPage` renders `title`, `status`, `client_name` and `next_hearing_at`, which case records do not have, and formats dates with `toLocaleString`.
- File contents, storage's rules on file names, and clearing the file input after the uploads are not modelled.
- Numbers are integers, so `String(v)` of a fractional number is not covered.
- JsValues.Utf16Length: a Dafny character is a Unicode scalar value, so strings with lone surrogates cannot be expressed; for every other string the count is exact.

=== FILE: actuations_api.dfy ===
/**
 * The client's view of the `actuaciones` table and the `actuaciones` storage
 * bucket: the insert payload with its `??` defaults, the patch an update
 * forwards, the listing of one case's actuaciones newest first, and the
 * object key a file is uploaded under.
 */
module ActuationsApi {
  import opened Wrappers
  import opened JsValues
  import opened Backend

  // ----------------------------------------------------------------- create

  /** The argument of `createActuacion`; an absent optional field is `None`. */
  datatype NewActuacion = NewActuacion(
    case_id: string,
    nombre: string,
    descripcion: Option<string>,
    entidades: Option<string>)

  /** The object sent to the insert: exactly these four fields. */
  datatype InsertPayload = InsertPayload(
    case_id: string,
    nombre: string,
    descripcion: string,
    entidades: Option<string>)  // None is `null`

  /** `descripcion ?? ''` and `entidades ?? null`: only a missing value is replaced. */
  function CreatePayload(input: NewActuacion): (p: InsertPayload)
    ensures p.case_id == input.case_id && p.nombre == input.nombre
    ensures input.descripcion.Some? ==> p.descripcion == input.descripcion.value
    ensures input.descripcion.None? ==> p.descripcion == ""
    ensures p.entidades == input.entidades
  {
    InsertPayload(input.case_id, input.nombre, input.descripcion.GetOr(""), input.entidades)
  }

  /** An empty `entidades` is sent as `''`, never turned into `null`, and a
      missing one is the only way to store `null`. */
  lemma CreatePayloadNullOnlyWhenMissing(input: NewActuacion)
    ensures CreatePayload(input).entidades.None? <==> input.entidades.None?
    ensures input.entidades == Some("") ==> CreatePayload(input).entidades == Some("")
  {
  }

  /** The row the backend stores for a payload: its id and both timestamps are
      filled in by the backend. */
  function InsertedAct(p: InsertPayload, newId: string, now: string): (a: Actuacion)
    ensures a.id == newId && a.created_at == now && a.updated_at == now
    ensures a.case_id == p.case_id && a.nombre == p.nombre
    ensures a.descripcion == p.descripcion && a.entidades == p.entidades
  {
    Actuacion(newId, p.case_id, p.nombre, p.descripcion, p.entidades, now, now)
  }

  /** `createActuacion`: inserts the payload and returns the stored row. */
  method CreateActuacion(db: Store, input: NewActuacion, newId: string, now: string, fault: Option<string>)
    returns (r: Result<Actuacion, Failure>)
    requires db.Valid()
    modifies db
    ensures db.Valid()
    ensures db.cases == old(db.cases) && db.bucket == old(db.bucket)
    ensures fault.Some? ==> r == Failure(Rejected(fault.value)) && db.actuaciones == old(db.actuaciones)
    ensures fault.None? && newId in old(db.actuaciones) ==>
      r == Failure(Conflict) && db.actuaciones == old(db.actuaciones)
    ensures fault.None? && newId !in old(db.actuaciones) ==>
      && r == Success(InsertedAct(CreatePayload(input), newId, now))
      && db.actuaciones == old(db.actuaciones)[newId := r.value]
  {
    var payload := CreatePayload(input);
    if fault.Some? {
      return Failure(Rejected(fault.value));
    }
    if newId in db.actuaciones {
      return Failure(Conflict);
    }
    var row := InsertedAct(payload, newId, now);
    db.actuaciones := db.actuaciones[newId := row];
    r := Success(row);
  }

  // ----------------------------------------------------------------- update

  /** The patch `updateActuacion` forwards: any of `nombre`, `descripcion`,
      `entidades` and `case_id`, each present or absent. */
  datatype ActPatch = ActPatch(
    nombre: Option<string>,
    descripcion: Option<string>,
    entidades: Option<Option<string>>,
    case_id: Option<string>)

  /** A row with the present fields of the patch written over it. */
  function ApplyPatch(a: Actuacion, patch: ActPatch): (b: Actuacion)
    ensures b.id == a.id && b.created_at == a.created_at && b.updated_at == a.updated_at
    ensures patch.nombre.Some? ==> b.nombre == patch.nombre.value
    ensures patch.nombre.None? ==> b.nombre == a.nombre
    ensures patch.descripcion.Some? ==> b.descripcion == patch.descripcion.value
    ensures patch.descripcion.None? ==> b.descripcion == a.descripcion
    ensures patch.entidades.Some? ==> b.entidades == patch.entidades.value
    ensures patch.entidades.None? ==> b.entidades == a.entidades
    ensures patch.case_id.Some? ==> b.case_id == patch.case_id.value
    ensures patch.case_id.None? ==> b.case_id == a.case_id
  {
    a.(nombre := patch.nombre.GetOr(a.nombre),
       descripcion := patch.descripcion.GetOr(a.descripcion),
       entidades := patch.entidades.GetOr(a.entidades),
       case_id := patch.case_id.GetOr(a.case_id))
  }

  /** Applying the same patch twice is applying it once, and an empty patch
      changes nothing. */
  lemma ApplyPatchIdempotent(a: Actuacion, patch: ActPatch)
    ensures ApplyPatch(ApplyPatch(a, patch), patch) == ApplyPatch(a, patch)
    ensures ApplyPatch(a, ActPatch(None, None, None, None)) == a
  {
  }

  /** `updateActuacion`: merges the patch into the one row with the given id. */
  method UpdateActuacion(db: Store, id: string, patch: ActPatch, fault: Option<string>)
    returns (r: Result<Actuacion, Failure>)
    requires db.Valid()
    modifies db
    ensures db.Valid()
    ensures db.cases == old(db.cases) && db.bucket == old(db.bucket)
    ensures fault.Some? ==> r == Failure(Rejected(fault.value)) && db.actuaciones == old(db.actuaciones)
    ensures fault.None? && id !in old(db.actuaciones) ==>
      r == Failure(NotSingle) && db.actuaciones == old(db.actuaciones)
    ensures fault.None? && id in old(db.actuaciones) ==>
      && r == Success(ApplyPatch(old(db.actuaciones)[id], patch))
      && db.actuaciones == old(db.actuaciones)[id := r.value]
  {
    if fault.Some? {
      return Failure(Rejected(fault.value));
    }
    if id !in db.actuaciones {
      return Failure(NotSingle);
    }
    var row := ApplyPatch(db.actuaciones[id], patch);
    db.actuaciones := db.actuaciones[id := row];
    r := Success(row);
  }

  /** `deleteActuacion`: removes the one id; a missing id is not an error. */
  method DeleteActuacion(db: Store, id: string, fault: Option<string>) returns (r: Result<(), Failure>)
    requires db.Valid()
    modifies db
    ensures db.Valid()
    ensures db.cases == old(db.cases) && db.bucket == old(db.bucket)
    ensures fault.Some? ==> r == Failure(Rejected(fault.value)) && db.actuaciones == old(db.actuaciones)
    ensures fault.None? ==> r == Success(()) && db.actuaciones == old(db.actuaciones) - {id}
  {
    if fault.Some? {
      return Failure(Rejected(fault.value));
    }
    db.actuaciones := db.actuaciones - {id};
    r := Success(());
  }

  // ------------------------------------------------------------------- list

  /** What the backend answers to `eq('case_id', caseId).order('created_at',
      { ascending: false })`: the ids of exactly the case's rows, each once,
      newest first. Rows with equal timestamps may come in any order. */
  ghost predicate IsActListing(acts: map<string, Actuacion>, caseId: string, order: seq<string>) {
    && (forall i, j :: 0 <= i < j < |order| ==> order[i] != order[j])
    && (forall i :: 0 <= i < |order| ==> order[i] in acts && acts[order[i]].case_id == caseId)
    && (forall id :: id in acts && acts[id].case_id == caseId ==> id in order)
    && (forall i, j :: 0 <= i < j < |order| ==>
          StrLe(acts[order[j]].created_at, acts[order[i]].created_at))
  }

  /** `listActuaciones`: the case's rows in the backend's order, or the error. */
  function ListActuaciones(db: Store, caseId: string, order: seq<string>, fault: Option<string>)
    : (r: Result<seq<Actuacion>, Failure>)
    reads db
    requires IsActListing(db.actuaciones, caseId, order)
    ensures r.Failure? <==> fault.Some?
    ensures r.Failure? ==> r.error == Rejected(fault.value)
    ensures r.Success? ==> |r.value| == |order|
    ensures r.Success? ==> forall i :: 0 <= i < |order| ==> r.value[i] == db.actuaciones[order[i]]
    ensures r.Success? ==> forall a :: a in r.value ==> a.case_id == caseId
    ensures r.Success? ==> forall i, j :: 0 <= i < j < |r.value| ==>
      StrLe(r.value[j].created_at, r.value[i].created_at)
  {
    if fault.Some? then Failure(Rejected(fault.value))
    else
      var acts := db.actuaciones;
      Success(seq(|order|, i requires 0 <= i < |order| => acts[order[i]]))
  }

  /** Every row of the case is listed. */
  lemma ListActuacionesComplete(db: Store, caseId: string, order: seq<string>, id: string)
    requires IsActListing(db.actuaciones, caseId, order)
    requires id in db.actuaciones && db.actuaciones[id].case_id == caseId
    ensures db.actuaciones[id] in ListActuaciones(db, caseId, order, None).value
  {
    var i :| 0 <= i < |order| && order[i] == id;
    assert ListActuaciones(db, caseId, order, None).value[i] == db.actuaciones[id];
  }

  // ----------------------------------------------------------------- upload

  /** `${caseId}/${Date.now()}-${file.name}`, with the clock reading as a parameter. */
  function UploadKey(caseId: string, ts: nat, name: string): (key: string)
    ensures |key| == |caseId| + 1 + |NatToDecimal(ts)| + 1 + |name|
  {
    caseId + "/" + NatToDecimal(ts) + "-" + name
  }

  /** The key lies in the case's folder and ends with the file's name. */
  lemma UploadKeyShape(caseId: string, ts: nat, name: string)
    ensures UploadKey(caseId, ts, name)[..|caseId| + 1] == caseId + "/"
    ensures UploadKey(caseId, ts, name)[|UploadKey(caseId, ts, name)| - |name|..] == name
  {
    var key := UploadKey(caseId, ts, name);
    assert key == (caseId + "/") + (NatToDecimal(ts) + "-" + name);
    assert key == (caseId + "/" + NatToDecimal(ts) + "-") + name;
  }

  /** Cutting at the first occurrence of a separator: if neither head holds it,
      the heads and the tails agree. */
  lemma SplitAtSeparator(a: string, b: string, c: string, d: string, sep: char)
    requires sep !in a && sep !in c
    requires a + [sep] + b == c + [sep] + d
    ensures a == c && b == d
  {
    var s := a + [sep] + b;
    assert forall i :: 0 <= i < |a| ==> s[i] == a[i] != sep;
    assert forall i :: 0 <= i < |c| ==> s[i] == c[i] != sep;
    assert s[|a|] == sep && s[|c|] == sep;
    assert |a| == |c|;
    assert a == s[..|a|] && c == s[..|c|];
    assert b == s[|a| + 1..] && d == s[|c| + 1..];
  }

  /** A key determines its case folder, its timestamp and its file name, as
      long as the case id holds no `/`. */
  lemma UploadKeyInjective(c1: string, t1: nat, n1: string, c2: string, t2: nat, n2: string)
    requires '/' !in c1 && '/' !in c2
    requires UploadKey(c1, t1, n1) == UploadKey(c2, t2, n2)
    ensures c1 == c2 && t1 == t2 && n1 == n2
  {
    var d1, d2 := NatToDecimal(t1), NatToDecimal(t2);
    assert UploadKey(c1, t1, n1) == c1 + ['/'] + (d1 + ['-'] + n1);
    assert UploadKey(c2, t2, n2) == c2 + ['/'] + (d2 + ['-'] + n2);
    SplitAtSeparator(c1, d1 + ['-'] + n1, c2, d2 + ['-'] + n2, '/');
    assert '-' !in d1 by {
      forall i | 0 <= i < |d1| ensures d1[i] != '-' { }
    }
    assert '-' !in d2 by {
      forall i | 0 <= i < |d2| ensures d2[i] != '-' { }
    }
    SplitAtSeparator(d1, n1, d2, n2, '-');
    NatToDecimalInjective(t1, t2);
  }

  /** Within one case folder, whatever the case id holds, a key determines its
      timestamp and its file name. */
  lemma UploadKeySameCase(c: string, t1: nat, n1: string, t2: nat, n2: string)
    requires UploadKey(c, t1, n1) == UploadKey(c, t2, n2)
    ensures t1 == t2 && n1 == n2
  {
    var d1, d2 := NatToDecimal(t1), NatToDecimal(t2);
    var k1, k2 := UploadKey(c, t1, n1), UploadKey(c, t2, n2);
    assert k1 == (c + "/") + (d1 + ['-'] + n1);
    assert k2 == (c + "/") + (d2 + ['-'] + n2);
    assert d1 + ['-'] + n1 == k1[|c| + 1..] == k2[|c| + 1..] == d2 + ['-'] + n2;
    assert '-' !in d1 by {
      forall i | 0 <= i < |d1| ensures d1[i] != '-' { }
    }
    assert '-' !in d2 by {
      forall i | 0 <= i < |d2| ensures d2[i] != '-' { }
    }
    SplitAtSeparator(d1, n1, d2, n2, '-');
    NatToDecimalInjective(t1, t2);
  }

  /** `uploadActFile` with `upsert: false`: a new key is added to the bucket and
      returned; an existing key is refused and the bucket is left as it was. */
  method UploadActFile(db: Store, caseId: string, ts: nat, name: string, fault: Option<string>)
    returns (r: Result<string, Failure>)
    modifies db
    ensures db.cases == old(db.cases) && db.actuaciones == old(db.actuaciones)
    ensures fault.Some? ==> r == Failure(Rejected(fault.value)) && db.bucket == old(db.bucket)
    ensures fault.None? && UploadKey(caseId, ts, name) in old(db.bucket) ==>
      r == Failure(Conflict) && db.bucket == old(db.bucket)
    ensures fault.None? && UploadKey(caseId, ts, name) !in old(db.bucket) ==>
      r == Success(UploadKey(caseId, ts, name)) && db.bucket == old(db.bucket) + {r.value}
  {
    var key := UploadKey(caseId, ts, name);
    if fault.Some? {
      return Failure(Rejected(fault.value));
    }
    if key in db.bucket {
      return Failure(Conflict);
    }
    db.bucket := db.bucket + {key};
    r := Success(key);
  }
}

=== FILE: actuations_dialog.dfy ===
/**
 * The actuations dialog of one case: the actuación being edited (or none, when
 * the form creates a new one), the form's draft, and the handlers that submit,
 * load, delete, close and upload.
 */
module ActuationsDialog {
  import opened Wrappers
  import opened JsValues
  import opened Backend
  import opened ActuationsApi

  /** The form's values as the schema hands them over: `descripcion` and
      `entidades` are optional strings. */
  datatype Draft = Draft(nombre: string, descripcion: Option<string>, entidades: Option<string>)

  /** The values every `reset` writes back. */
  const EmptyDraft: Draft := Draft("", Some(""), Some(""))

  /** The schema: `nombre` has at least two UTF-16 code units; the other fields
      are unconstrained. */
  predicate DraftAccepted(d: Draft): (ok: bool)
    ensures ok ==> d.nombre != []
    ensures |d.nombre| >= 2 ==> ok
  {
    Utf16Length(d.nombre) >= 2
  }

  /** A name of two or more characters is accepted; a single character is
      accepted exactly when it lies outside the Basic Multilingual Plane, where
      it counts as two code units; the empty name, and so the empty form, is refused. */
  lemma DraftAcceptedIff(d: Draft)
    ensures DraftAccepted(d) <==>
      |d.nombre| >= 2 || (|d.nombre| == 1 && d.nombre[0] as int > 0xFFFF)
    ensures !DraftAccepted(EmptyDraft)
  {
    if |d.nombre| == 1 {
      assert d.nombre == [d.nombre[0]];
      Utf16LengthChar(d.nombre[0]);
    }
  }

  /** The create payload the dialog sends: its own case id, and `|| ''` on the
      optional fields. */
  function CreateInput(caseId: string, d: Draft): (input: NewActuacion)
    ensures input.case_id == caseId && input.nombre == d.nombre
    ensures input.descripcion == Some(d.descripcion.GetOr(""))
    ensures input.entidades == Some(d.entidades.GetOr(""))
  {
    NewActuacion(caseId, d.nombre, Some(d.descripcion.GetOr("")), Some(d.entidades.GetOr("")))
  }

  /** The update patch the dialog sends: the three form fields, never `case_id`. */
  function EditPatch(d: Draft): (patch: ActPatch)
    ensures patch.case_id.None?
    ensures patch.nombre == Some(d.nombre)
    ensures patch.descripcion == Some(d.descripcion.GetOr(""))
    ensures patch.entidades == Some(Some(d.entidades.GetOr("")))
  {
    ActPatch(Some(d.nombre), Some(d.descripcion.GetOr("")), Some(Some(d.entidades.GetOr(""))), None)
  }

  /** A row created or edited through the dialog never holds `null` in
      `entidades`, and stays with the case it belongs to. */
  lemma DialogNeverStoresNull(caseId: string, d: Draft, a: Actuacion, newId: string, now: string)
    ensures InsertedAct(CreatePayload(CreateInput(caseId, d)), newId, now).entidades.Some?
    ensures InsertedAct(CreatePayload(CreateInput(caseId, d)), newId, now).case_id == caseId
    ensures ApplyPatch(a, EditPatch(d)).entidades.Some?
    ensures ApplyPatch(a, EditPatch(d)).case_id == a.case_id
  {
  }

  /** The draft `onEdit` loads: the row's texts, `null` entidades as `''`. */
  function DraftOf(a: Actuacion): (d: Draft)
    ensures d.nombre == a.nombre
    ensures d.descripcion == Some(a.descripcion)
    ensures d.entidades == Some(a.entidades.GetOr(""))
  {
    Draft(a.nombre, Some(a.descripcion), Some(a.entidades.GetOr("")))
  }

  /** Loading a row and saving it untouched gives the row back, except that a
      `null` entidades becomes `''`. */
  lemma EditSaveRoundTrip(a: Actuacion)
    ensures a.entidades.Some? ==> ApplyPatch(a, EditPatch(DraftOf(a))) == a
    ensures a.entidades.None? ==> ApplyPatch(a, EditPatch(DraftOf(a))) == a.(entidades := Some(""))
  {
  }

  /** What a submit ended in. */
  datatype Outcome =
    | Invalid                 // the schema refused the draft; nothing was sent
    | Failed(error: Failure)  // the backend call failed
    | Saved(row: Actuacion)   // the row as stored

  class Dialog {
    const caseId: string
    var open: bool
    var editing: Option<Actuacion>  // `editingAct`; None is `null`
    var draft: Draft

    /** The form starts empty, creating. */
    constructor (caseId: string, open: bool)
      ensures this.caseId == caseId && this.open == open
      ensures editing == None && draft == EmptyDraft
    {
      this.caseId := caseId;
      this.open := open;
      editing := None;
      draft := EmptyDraft;
    }

    /** The user types into the form. */
    method Type(d: Draft)
      modifies this
      ensures draft == d
      ensures open == old(open) && editing == old(editing)
    {
      draft := d;
    }

    /** `onSubmit`: creates a row for the dialog's case or patches the row being
        edited; on success the form goes back to creating, empty; on failure
        the form keeps what it had. */
    method OnSubmit(db: Store, newId: string, now: string, fault: Option<string>) returns (r: Outcome)
      requires db.Valid()
      modifies this, db
      ensures db.Valid()
      ensures db.cases == old(db.cases) && db.bucket == old(db.bucket)
      ensures open == old(open)
      ensures !DraftAccepted(old(draft)) ==> r == Invalid && db.actuaciones == old(db.actuaciones)
      ensures DraftAccepted(old(draft)) && fault.Some? ==>
        r == Failed(Rejected(fault.value)) && db.actuaciones == old(db.actuaciones)
      ensures r.Invalid? || r.Failed? ==> editing == old(editing) && draft == old(draft)
      ensures r.Saved? ==> editing == None && draft == EmptyDraft
      ensures DraftAccepted(old(draft)) && fault.None? && old(editing).None? ==>
        if newId in old(db.actuaciones) then
          r == Failed(Conflict) && db.actuaciones == old(db.actuaciones)
        else
          && r == Saved(InsertedAct(CreatePayload(CreateInput(caseId, old(draft))), newId, now))
          && db.actuaciones == old(db.actuaciones)[newId := r.row]
      ensures DraftAccepted(old(draft)) && fault.None? && old(editing).Some? ==>
        var id := old(editing).value.id;
        if id !in old(db.actuaciones) then
          r == Failed(NotSingle) && db.actuaciones == old(db.actuaciones)
        else
          && r == Saved(ApplyPatch(old(db.actuaciones)[id], EditPatch(old(draft))))
          && db.actuaciones == old(db.actuaciones)[id := r.row]
    {
      if !DraftAccepted(draft) {
        return Invalid;
      }
      var res: Result<Actuacion, Failure>;
      if editing.Some? {
        res := UpdateActuacion(db, editing.value.id, EditPatch(draft), fault);
      } else {
        res := CreateActuacion(db, CreateInput(caseId, draft), newId, now, fault);
      }
      if res.Failure? {
        return Failed(res.error);
      }
      editing := None;
      draft := EmptyDraft;
      r := Saved(res.value);
    }

    /** `onEdit`: the row becomes the one being edited and fills the form. */
    method OnEdit(a: Actuacion)
      modifies this
      ensures editing == Some(a) && draft == DraftOf(a)
      ensures open == old(open)
    {
      editing := Some(a);
      draft := DraftOf(a);
    }

    /** `onDelete`: deletes the row; only when it was the row being edited does
        the form go back to creating, empty. */
    method OnDelete(db: Store, id: string, fault: Option<string>) returns (r: Result<(), Failure>)
      requires db.Valid()
      modifies this, db
      ensures db.Valid()
      ensures db.cases == old(db.cases) && db.bucket == old(db.bucket)
      ensures open == old(open)
      ensures fault.Some? ==>
        && r == Failure(Rejected(fault.value)) && db.actuaciones == old(db.actuaciones)
        && editing == old(editing) && draft == old(draft)
      ensures fault.None? ==> r == Success(()) && db.actuaciones == old(db.actuaciones) - {id}
      ensures fault.None? && old(editing).Some? && old(editing).value.id == id ==>
        editing == None && draft == EmptyDraft
      ensures fault.None? && !(old(editing).Some? && old(editing).value.id == id) ==>
        editing == old(editing) && draft == old(draft)
    {
      r := DeleteActuacion(db, id, fault);
      if r.Failure? {
        return;
      }
      if editing.Some? && editing.value.id == id {
        editing := None;
        draft := EmptyDraft;
      }
    }

    /** The `open` prop changes; the effect on `open` resets the form whenever
        the dialog is closed. */
    method SetOpen(o: bool)
      modifies this
      ensures open == o
      ensures !o ==> editing == None && draft == EmptyDraft
      ensures o ==> editing == old(editing) && draft == old(draft)
    {
      open := o;
      if !o {
        editing := None;
        draft := EmptyDraft;
      }
    }

    /** `onFilesSelected`: uploads the files one after the other, in the order
        they were selected, each under its own key; the first failure stops
        the loop, and the files after it are not uploaded. `times[i]` is the
        clock reading when the i-th upload starts and `faults[i]` its backend
        outcome. */
    method OnFilesSelected(db: Store, files: seq<string>, times: seq<nat>, faults: seq<Option<string>>)
      returns (keys: seq<string>, r: Result<(), Failure>)
      requires |times| == |files| && |faults| == |files|
      modifies db
      ensures db.cases == old(db.cases) && db.actuaciones == old(db.actuaciones)
      ensures |keys| <= |files|
      ensures forall i :: 0 <= i < |keys| ==> keys[i] == UploadKey(caseId, times[i], files[i])
      ensures forall i :: 0 <= i < |keys| ==> keys[i] !in old(db.bucket)
      ensures forall i, j :: 0 <= i < j < |keys| ==> keys[i] != keys[j]
      ensures db.bucket == old(db.bucket) + set k | k in keys
      ensures r.Success? <==> |keys| == |files|
      ensures r.Failure? ==>
        var n := |keys|;
        if faults[n].Some? then r.error == Rejected(faults[n].value)
        else r.error == Conflict && UploadKey(caseId, times[n], files[n]) in db.bucket
    {
      keys := [];
      var i := 0;
      while i < |files|
        invariant 0 <= i <= |files| && |keys| == i
        invariant db.cases == old(db.cases) && db.actuaciones == old(db.actuaciones)
        invariant forall j :: 0 <= j < i ==> keys[j] == UploadKey(caseId, times[j], files[j])
        invariant forall j :: 0 <= j < i ==> keys[j] !in old(db.bucket)
        invariant forall j, k :: 0 <= j < k < i ==> keys[j] != keys[k]
        invariant db.bucket == old(db.bucket) + set k | k in keys
      {
        ghost var before, done := db.bucket, keys;
        var up := UploadActFile(db, caseId, times[i], files[i], faults[i]);
        if up.Failure? {
          return keys, Failure(up.error);
        }
        // the new key was not there yet, so it differs from every earlier one
        assert forall j :: 0 <= j < i ==> done[j] in before;
        keys := keys + [up.value];
        assert (set k | k in keys) == (set k | k in done) + {up.value};
        i := i + 1;
      }
      r := Success(());
    }
  }
}

=== FILE: backend.dfy ===
/**
 * The hosted backend, reduced to what the client relies on: the `cases` and
 * `actuaciones` tables, keyed by record id, and the object keys stored in the
 * `actuaciones` storage bucket. Every call into it may fail; the failure is an
 * input of each operation (`fault`), so the model covers every outcome.
 */
module Backend {
  import opened Wrappers
  import opened JsValues

  /** Why a backend call failed. */
  datatype Failure =
    | Rejected(message: string)  // any error the backend reports (network, permissions, ...)
    | Conflict                   // the id or storage key already exists
    | NotSingle                  // `.single()` found no row to return
    | BadValue                   // a value the column cannot hold, such as an id that is not text

  /** A row of the `actuaciones` table, with the field types the client declares. */
  datatype Actuacion = Actuacion(
    id: string,
    case_id: string,
    nombre: string,
    descripcion: string,
    entidades: Option<string>,  // None is `null`
    created_at: string,
    updated_at: string)

  class Store {
    var cases: map<string, Row>
    var actuaciones: map<string, Actuacion>
    var bucket: set<string>

    /** The primary key of both tables is the record's own `id`. */
    ghost predicate Valid()
      reads this
    {
      && (forall id :: id in cases ==> "id" in cases[id] && cases[id]["id"] == Str(id))
      && (forall id :: id in actuaciones ==> actuaciones[id].id == id)
    }

    constructor ()
      ensures Valid()
      ensures cases == map[] && actuaciones == map[] && bucket == {}
    {
      cases := map[];
      actuaciones := map[];
      bucket := {};
    }
  }

  /** Lexicographic order on strings, which is chronological order on the backend's timestamps. */
  predicate StrLe(a: string, b: string)
    decreases |a|
  {
    a == [] || (b != [] && (a[0] < b[0] || (a[0] == b[0] && StrLe(a[1..], b[1..]))))
  }
}

=== FILE: case_form.dfy ===
/**
 * The case form (`CaseForm.tsx`): the defendants shown as one comma-separated
 * field and parsed back into a list, the form's validation schema, the values
 * it is opened with, and the payload it submits.
 */
module CaseForm {
  import opened Wrappers
  import opened JsValues
  import CasesApi

  // ------------------------------------------------------------ trimming

  /** The characters `String.prototype.trim` removes: white space and line terminators. */
  predicate IsSpace(c: char) {
    var n := c as int;
    n == 0x09 || n == 0x0A || n == 0x0B || n == 0x0C || n == 0x0D || n == 0x20 ||
    n == 0xA0 || n == 0x1680 || (0x2000 <= n <= 0x200A) || n == 0x2028 || n == 0x2029 ||
    n == 0x202F || n == 0x205F || n == 0x3000 || n == 0xFEFF
  }

  /** No white space at either end. */
  predicate IsTrimmed(x: string) {
    x == [] || (!IsSpace(x[0]) && !IsSpace(x[|x| - 1]))
  }

  function TrimStart(s: string): (r: string)
    ensures |r| <= |s| && r == s[|s| - |r|..]
    ensures r == [] || !IsSpace(r[0])
    ensures forall k :: 0 <= k < |s| - |r| ==> IsSpace(s[k])
  {
    if s != [] && IsSpace(s[0]) then
      var r := TrimStart(s[1..]);
      assert forall k :: 1 <= k < |s| - |r| ==> s[k] == s[1..][k - 1];
      r
    else s
  }

  function TrimEnd(s: string): (r: string)
    ensures |r| <= |s| && r == s[..|r|]
    ensures r == [] || !IsSpace(r[|r| - 1])
    ensures forall k :: |r| <= k < |s| ==> IsSpace(s[k])
  {
    if s != [] && IsSpace(s[|s| - 1]) then
      var r := TrimEnd(s[..|s| - 1]);
      assert forall k :: |r| <= k < |s| - 1 ==> s[k] == s[..|s| - 1][k];
      r
    else s
  }

  /** `r` is `s` with some white space cut off at each end. */
  predicate IsCutOf(s: string, r: string, i: nat, j: nat) {
    && i <= j <= |s| && r == s[i..j]
    && (forall k :: 0 <= k < i ==> IsSpace(s[k]))
    && (forall k :: j <= k < |s| ==> IsSpace(s[k]))
  }

  /** `s.trim()`: `s` with the white space at both ends removed (`TrimIsCut`),
      and nothing else (`TrimUnique`). */
  function Trim(s: string): (r: string)
    ensures IsTrimmed(r)
    ensures forall c :: c in r ==> c in s
    ensures IsTrimmed(s) ==> r == s
  {
    var t := TrimStart(s);
    var r := TrimEnd(t);
    var i := |s| - |t|;
    assert r != [] ==> r[0] == t[0];
    assert forall k :: 0 <= k < |r| ==> r[k] == s[i + k];
    r
  }

  /** Trimming only cuts white space off the two ends. */
  lemma TrimIsCut(s: string)
    ensures exists i: nat, j: nat :: IsCutOf(s, Trim(s), i, j)
  {
    var t := TrimStart(s);
    var r := TrimEnd(t);
    var i := |s| - |t|;
    assert t == s[i..] && r == t[..|r|];
    assert forall k :: |r| <= k < |t| ==> s[i + k] == t[k];
    assert IsCutOf(s, r, i, i + |r|);
    assert r == Trim(s);
  }

  /** The first character of a non-empty trimmed cut lies inside every other cut. */
  lemma CutsOverlap(s: string, r: string, i: nat, j: nat, t: string, i': nat, j': nat)
    requires IsTrimmed(r) && IsCutOf(s, r, i, j) && IsCutOf(s, t, i', j')
    ensures r != [] ==> i' <= i < j' && i' <= j - 1 < j'
  {
    if r != [] {
      assert s[i] == r[0] && s[j - 1] == r[|r| - 1];
    }
  }

  /** Trimming is determined: the only trimmed text that `s` becomes by cutting
      white space off its ends is `Trim(s)`. */
  lemma TrimUnique(s: string, r: string, i: nat, j: nat)
    requires IsTrimmed(r) && IsCutOf(s, r, i, j)
    ensures r == Trim(s)
  {
    var t := Trim(s);
    TrimIsCut(s);
    var i': nat, j': nat :| IsCutOf(s, t, i', j');
    CutsOverlap(s, r, i, j, t, i', j');
    CutsOverlap(s, t, i', j', r, i, j);
    if r != [] {
      // both cuts start and end at the outermost characters that are not white space
      assert s[i] == r[0] && s[i'] == t[0];
      assert i == i';
      assert s[j - 1] == r[|r| - 1] && s[j' - 1] == t[|t| - 1];
      assert j == j';
    }
  }

  /** Leading white space does not change the trimmed text. */
  lemma TrimLeadingSpace(c: char, s: string)
    requires IsSpace(c)
    ensures Trim([c] + s) == Trim(s)
  {
    assert ([c] + s)[1..] == s;
  }

  // -------------------------------------------------------- split and join

  /** `xs.join(sep)`: the empty list joins to `''`, a single element to itself,
      and each further element adds the separator and itself (`JoinAppend`). */
  function Join(xs: seq<string>, sep: string): (r: string)
    ensures xs == [] ==> r == ""
    ensures |xs| == 1 ==> r == xs[0]
  {
    if |xs| == 0 then ""
    else if |xs| == 1 then xs[0]
    else xs[0] + sep + Join(xs[1..], sep)
  }

  /** Joining grows at the end: one more element adds the separator and itself. */
  lemma {:induction false} JoinAppend(xs: seq<string>, x: string, sep: string)
    requires xs != []
    ensures Join(xs + [x], sep) == Join(xs, sep) + sep + x
  {
    assert (xs + [x])[0] == xs[0];
    if |xs| == 1 {
      assert (xs + [x])[1..] == [x];
    } else {
      assert (xs + [x])[1..] == xs[1..] + [x];
      JoinAppend(xs[1..], x, sep);
    }
  }

  /** `s.split(',')`: the pieces between commas, always at least one. */
  function Split(s: string): (r: seq<string>)
    ensures |r| >= 1
    ensures forall i :: 0 <= i < |r| ==> ',' !in r[i]
  {
    if s == [] then [""]
    else
      var t := Split(s[1..]);
      if s[0] == ',' then [""] + t
      else [[s[0]] + t[0]] + t[1..]
  }

  /** Joining the pieces back with commas gives the text that was split. */
  lemma {:induction false} SplitJoin(s: string)
    ensures Join(Split(s), ",") == s
  {
    if s != [] {
      var t := Split(s[1..]);
      SplitJoin(s[1..]);
      if s[0] == ',' {
        assert ([""] + t)[1..] == t;
      } else {
        var r := [[s[0]] + t[0]] + t[1..];
        if |t| > 1 {
          assert r[1..] == t[1..];
        }
        assert [s[0]] + s[1..] == s;
      }
    }
  }

  /** A comma ends the first piece. */
  lemma {:induction false} SplitAfterComma(a: string, b: string)
    requires ',' !in a
    ensures Split(a + "," + b) == [a] + Split(b)
  {
    var s := a + "," + b;
    if a == [] {
      assert s[0] == ',' && s[1..] == b;
    } else {
      assert s[0] == a[0] && s[1..] == a[1..] + "," + b;
      SplitAfterComma(a[1..], b);
      assert [a[0]] + a[1..] == a;
    }
  }

  /** Text without a comma is a single piece. */
  lemma {:induction false} SplitNoComma(a: string)
    requires ',' !in a
    ensures Split(a) == [a]
  {
    if a != [] {
      SplitNoComma(a[1..]);
      assert [a[0]] + a[1..] == a;
    }
  }

  // --------------------------------------------------------- the CSV field

  /** `.map((s) => s.trim())` */
  function TrimAll(pieces: seq<string>): (r: seq<string>)
    ensures |r| == |pieces|
    ensures forall i :: 0 <= i < |r| ==> r[i] == Trim(pieces[i])
  {
    if pieces == [] then [] else [Trim(pieces[0])] + TrimAll(pieces[1..])
  }

  /** `.filter((s) => s.length > 0)` */
  function DropEmpty(xs: seq<string>): (r: seq<string>)
    ensures forall x :: x in r ==> x in xs && x != ""
    ensures |r| <= |xs|
  {
    if xs == [] then []
    else (if xs[0] != "" then [xs[0]] else []) + DropEmpty(xs[1..])
  }

  lemma {:induction false} DropEmptyAppend(a: seq<string>, b: seq<string>)
    ensures DropEmpty(a + b) == DropEmpty(a) + DropEmpty(b)
  {
    if a != [] {
      assert (a + b)[1..] == a[1..] + b;
      DropEmptyAppend(a[1..], b);
    } else {
      assert a + b == b;
    }
  }

  lemma DropEmptySingle(x: string)
    ensures DropEmpty([x]) == if x != "" then [x] else []
  {
    assert [x][1..] == [];
  }

  /** A defendant name as the form keeps it: not empty, trimmed, and free of commas. */
  predicate IsName(x: string) {
    x != "" && IsTrimmed(x) && ',' !in x
  }

  /** The defendants the form submits for the text of its CSV field:
      `split(',')`, then `trim`, then drop the empty pieces. */
  function ParseDemandados(csv: string): (r: seq<string>)
    ensures |r| <= |Split(csv)|
  {
    DropEmpty(TrimAll(Split(csv)))
  }

  /** Every parsed defendant is a name: not empty, trimmed and without a comma. */
  lemma ParseYieldsNames(csv: string)
    ensures forall x :: x in ParseDemandados(csv) ==> IsName(x)
  {
    var pieces := Split(csv);
    forall x | x in ParseDemandados(csv) ensures IsName(x) {
      var i :| 0 <= i < |pieces| && x == Trim(pieces[i]);
    }
  }

  /** An empty field parses to no defendants. */
  lemma ParseEmpty()
    ensures ParseDemandados("") == []
  {
    assert Split("") == [""];
    assert IsTrimmed("") && Trim("") == "";
    assert TrimAll([""]) == [""];
    assert DropEmpty([""]) == [];
  }

  /** The name a single comma-free piece contributes: its trimmed text, if any. */
  function PieceName(a: string): (r: seq<string>)
    ensures |r| <= 1
  {
    if Trim(a) != "" then [Trim(a)] else []
  }

  lemma TrimAllAppend(p: seq<string>, q: seq<string>)
    ensures TrimAll(p + q) == TrimAll(p) + TrimAll(q)
  {
  }

  /** The names of the field's pieces, piece by piece. */
  lemma NamesAppend(p: seq<string>, q: seq<string>)
    ensures DropEmpty(TrimAll(p + q)) == DropEmpty(TrimAll(p)) + DropEmpty(TrimAll(q))
  {
    TrimAllAppend(p, q);
    DropEmptyAppend(TrimAll(p), TrimAll(q));
  }

  lemma NamesSingle(a: string)
    ensures DropEmpty(TrimAll([a])) == PieceName(a)
  {
    assert TrimAll([a]) == [Trim(a)];
    DropEmptySingle(Trim(a));
  }

  lemma {:induction false} ParseAfterComma(a: string, b: string)
    requires ',' !in a
    ensures ParseDemandados(a + "," + b) == PieceName(a) + ParseDemandados(b)
  {
    SplitAfterComma(a, b);
    NamesAppend([a], Split(b));
    NamesSingle(a);
  }

  lemma {:induction false} ParseNoComma(a: string)
    requires ',' !in a
    ensures ParseDemandados(a) == PieceName(a)
  {
    SplitNoComma(a);
    NamesSingle(a);
  }

  lemma SplitLeadingChar(c: char, t: string)
    requires c != ','
    ensures Split([c] + t) == [[c] + Split(t)[0]] + Split(t)[1..]
  {
    assert ([c] + t)[0] == c && ([c] + t)[1..] == t;
  }

  /** White space in front of the field does not change what it parses to. */
  lemma ParseLeadingSpace(c: char, t: string)
    requires IsSpace(c)
    ensures ParseDemandados([c] + t) == ParseDemandados(t)
  {
    var p := Split(t);
    SplitLeadingChar(c, t);
    TrimLeadingSpace(c, p[0]);
    assert p == [p[0]] + p[1..];
    TrimAllAppend([[c] + p[0]], p[1..]);
    TrimAllAppend([p[0]], p[1..]);
  }

  lemma JoinSpaced(xs: seq<string>)
    requires |xs| > 1
    ensures Join(xs, ", ") == xs[0] + "," + ([' '] + Join(xs[1..], ", "))
  {
  }

  lemma NamePiece(x: string)
    requires IsName(x)
    ensures PieceName(x) == [x]
  {
  }

  /** A name, a comma and a space in front of the rest of the field add that one name. */
  lemma ParseNameThenRest(x: string, rest: string)
    requires IsName(x)
    ensures ParseDemandados(x + "," + ([' '] + rest)) == [x] + ParseDemandados(rest)
  {
    NamePiece(x);
    ParseAfterComma(x, [' '] + rest);
    ParseLeadingSpace(' ', rest);
  }

  lemma ParseJoinStep(xs: seq<string>)
    requires |xs| > 1 && IsName(xs[0])
    requires ParseDemandados(Join(xs[1..], ", ")) == xs[1..]
    ensures ParseDemandados(Join(xs, ", ")) == xs
  {
    JoinSpaced(xs);
    ParseNameThenRest(xs[0], Join(xs[1..], ", "));
    assert xs == [xs[0]] + xs[1..];
  }

  /** Showing a list of names joined with ", " and parsing the field back gives
      the same list. */
  lemma {:induction false} ParseJoin(xs: seq<string>)
    requires forall x :: x in xs ==> IsName(x)
    ensures ParseDemandados(Join(xs, ", ")) == xs
  {
    if xs == [] {
      ParseEmpty();
    } else if |xs| == 1 {
      assert IsName(xs[0]);
      NamePiece(xs[0]);
      ParseNoComma(xs[0]);
    } else {
      assert IsName(xs[0]);
      ParseJoin(xs[1..]);
      ParseJoinStep(xs);
    }
  }

  /** Parsing, showing and parsing again gives what the first parse gave. */
  lemma ParseJoinParse(s: string)
    ensures ParseDemandados(Join(ParseDemandados(s), ", ")) == ParseDemandados(s)
  {
    ParseYieldsNames(s);
    ParseJoin(ParseDemandados(s));
  }

  // ------------------------------------------------------------- the schema

  /** The values in the form's inputs; `demandados_csv` is optional. */
  datatype CaseFormInput = CaseFormInput(
    cedula_demandante: string,
    demandados_csv: Option<string>,
    tipo: string,
    juzgado: string,
    numero_radicado: string)

  /** What the schema hands to `submit` once validation has passed. */
  datatype CaseFormData = CaseFormData(
    cedula_demandante: string,
    demandados_csv: string,
    tipo: string,
    juzgado: string,
    numero_radicado: string)

  /** The fields the schema can reject. */
  datatype Field = CedulaDemandante | Tipo | Juzgado | NumeroRadicado

  /** The zod schema: three required texts of length at least one, a type from
      the four-value enum, and the CSV field defaulting to ''. Only length is
      checked, so white space alone is accepted. */
  function Validate(v: CaseFormInput): (r: Result<CaseFormData, set<Field>>)
    ensures r.Success? <==>
      Utf16Length(v.cedula_demandante) >= 1 && v.tipo in CasesApi.CaseTipos &&
      Utf16Length(v.juzgado) >= 1 && Utf16Length(v.numero_radicado) >= 1
    ensures r.Success? ==> r.value == CaseFormData(v.cedula_demandante,
      v.demandados_csv.GetOr(""), v.tipo, v.juzgado, v.numero_radicado)
    ensures r.Failure? ==>
      && (CedulaDemandante in r.error <==> v.cedula_demandante == "")
      && (Tipo in r.error <==> v.tipo !in CasesApi.CaseTipos)
      && (Juzgado in r.error <==> v.juzgado == "")
      && (NumeroRadicado in r.error <==> v.numero_radicado == "")
  {
    var errors :=
      (if Utf16Length(v.cedula_demandante) >= 1 then {} else {CedulaDemandante}) +
      (if v.tipo in CasesApi.CaseTipos then {} else {Tipo}) +
      (if Utf16Length(v.juzgado) >= 1 then {} else {Juzgado}) +
      (if Utf16Length(v.numero_radicado) >= 1 then {} else {NumeroRadicado});
    if errors == {} then
      Success(CaseFormData(v.cedula_demandante, v.demandados_csv.GetOr(""),
                           v.tipo, v.juzgado, v.numero_radicado))
    else
      Failure(errors)
  }

  /** A text of white space alone trims to nothing. */
  lemma TrimBlank(s: string)
    requires forall c :: c in s ==> IsSpace(c)
    ensures Trim(s) == ""
  {
    var r := Trim(s);
    assert forall k :: 0 <= k < |r| ==> r[k] in r;
  }

  /** The schema checks length only: required texts made of white space alone
      pass it, although each trims to nothing. */
  lemma BlankTextAccepted(v: CaseFormInput)
    requires v.cedula_demandante != "" && v.juzgado != "" && v.numero_radicado != ""
    requires forall c :: c in v.cedula_demandante ==> IsSpace(c)
    requires forall c :: c in v.juzgado ==> IsSpace(c)
    requires forall c :: c in v.numero_radicado ==> IsSpace(c)
    requires v.tipo in CasesApi.CaseTipos
    ensures Validate(v).Success?
    ensures Trim(v.cedula_demandante) == "" && Trim(v.juzgado) == "" && Trim(v.numero_radicado) == ""
  {
    TrimBlank(v.cedula_demandante);
    TrimBlank(v.juzgado);
    TrimBlank(v.numero_radicado);
  }

  // -------------------------------------------------------------- defaults

  /** What the form reads from its `initial` record: the declared string fields
      hold strings or nothing, and a defendants array holds strings. */
  predicate IsFormInitial(row: Row) {
    && (forall k :: k in {"cedula_demandante", "tipo", "juzgado", "numero_radicado"} && k in row ==>
          row[k].Null? || row[k].Str?)
    && ("demandados" in row && row["demandados"].Arr? ==> AllStr(row["demandados"].items))
  }

  /** `initial?.k ?? d` for a string field. */
  function InitialText(initial: Option<Row>, k: string, d: string): (t: string)
    requires initial.Some? && k in initial.value ==> initial.value[k].Null? || initial.value[k].Str?
    ensures initial.Some? && k in initial.value && initial.value[k].Str? ==> t == initial.value[k].s
    ensures (initial.None? || k !in initial.value || initial.value[k].Null?) ==> t == d
  {
    if initial.Some? && k in initial.value && initial.value[k].Str? then initial.value[k].s else d
  }

  /** The values the form is opened (and reset) with. */
  function Defaults(initial: Option<Row>): (v: CaseFormInput)
    requires initial.Some? ==> IsFormInitial(initial.value)
    ensures v.demandados_csv.Some?
    ensures initial.None? ==> v == CaseFormInput("", Some(""), "transito", "", "")
    ensures initial.Some? && "demandados" in initial.value && initial.value["demandados"].Arr? ==>
      v.demandados_csv == Some(Join(Strings(initial.value["demandados"].items), ", "))
    ensures initial.Some? && !("demandados" in initial.value && initial.value["demandados"].Arr?) ==>
      v.demandados_csv == Some("")
  {
    var csv :=
      if initial.Some? && "demandados" in initial.value && initial.value["demandados"].Arr?
      then Join(Strings(initial.value["demandados"].items), ", ")
      else "";
    CaseFormInput(
      InitialText(initial, "cedula_demandante", ""),
      Some(csv),
      InitialText(initial, "tipo", "transito"),
      InitialText(initial, "juzgado", ""),
      InitialText(initial, "numero_radicado", ""))
  }

  /** A case record can be the form's initial record. */
  lemma CaseRecordIsFormInitial(row: Row)
    requires CasesApi.IsCaseRecord(row)
    requires "juzgado" in row ==> row["juzgado"].Null? || row["juzgado"].Str?
    ensures IsFormInitial(row)
  {
    assert "cedula_demandante" in CasesApi.ListDefaults && "tipo" in CasesApi.ListDefaults;
    assert "numero_radicado" in CasesApi.ListDefaults;
    assert row["cedula_demandante"].Str? && row["tipo"].Str? && row["numero_radicado"].Str?;
  }

  /** A new case's empty form cannot be submitted: all three required texts are missing. */
  lemma EmptyFormRejected()
    ensures Validate(Defaults(None)) == Failure({CedulaDemandante, Juzgado, NumeroRadicado})
  {
    var r := Validate(Defaults(None));
    assert r.Failure?;
    assert r.error == {CedulaDemandante, Juzgado, NumeroRadicado};
  }

  /** Opening the form on a case record and parsing the CSV field back gives the
      case's defendants, when each is a name the form could have produced. */
  lemma DefaultsParseBack(row: Row)
    requires CasesApi.IsCaseRecord(row)
    requires "juzgado" in row ==> row["juzgado"].Null? || row["juzgado"].Str?
    requires forall x :: x in CasesApi.Demandados(row) ==> IsName(x)
    ensures IsFormInitial(row)
    ensures ParseDemandados(Defaults(Some(row)).demandados_csv.value) == CasesApi.Demandados(row)
  {
    CaseRecordIsFormInitial(row);
    ParseJoin(CasesApi.Demandados(row));
  }

  /** A case record stores its court as `juzgado_nombre`, but the form reads
      `juzgado`: opened on a record without a `juzgado` key, the form fails
      validation on that field until the court is typed again. */
  lemma EditFormLosesCourt(row: Row)
    requires CasesApi.IsCaseRecord(row)
    requires "juzgado" !in row
    ensures IsFormInitial(row)
    ensures Validate(Defaults(Some(row))).Failure?
    ensures Juzgado in Validate(Defaults(Some(row))).error
  {
    CaseRecordIsFormInitial(row);
  }

  // ---------------------------------------------------------------- submit

  /** The keys of the submitted payload. */
  const SubmitKeys: set<string> := {"cedula_demandante", "demandados", "tipo", "juzgado",
    "numero_radicado", "assigned_lawyer", "created_at", "updated_at", "id"}

  /** The submitted row, with the defendants and the lawyer already computed. */
  function PayloadRow(d: CaseFormData, demandados: Json, lawyer: Json): (p: Row)
    ensures p.Keys == SubmitKeys
    ensures "demandados" in p && p["demandados"] == demandados
    ensures "cedula_demandante" in p && p["cedula_demandante"] == Str(d.cedula_demandante)
    ensures "tipo" in p && p["tipo"] == Str(d.tipo)
    ensures "juzgado" in p && p["juzgado"] == Str(d.juzgado)
    ensures "numero_radicado" in p && p["numero_radicado"] == Str(d.numero_radicado)
    ensures "assigned_lawyer" in p && p["assigned_lawyer"] == lawyer
    ensures "id" in p && p["id"] == Str("")
    ensures "created_at" in p && p["created_at"] == Str("")
    ensures "updated_at" in p && p["updated_at"] == Str("")
  {
    map[
      "cedula_demandante" := Str(d.cedula_demandante),
      "demandados" := demandados,
      "tipo" := Str(d.tipo),
      "juzgado" := Str(d.juzgado),
      "numero_radicado" := Str(d.numero_radicado),
      "assigned_lawyer" := lawyer,
      "created_at" := Str(""),
      "updated_at" := Str(""),
      "id" := Str("")]
  }

  /** `submit`: the validated texts copied as they are, the defendants parsed
      from the CSV field, the lawyer taken from the initial record or '', and
      the backend-filled fields set to ''. */
  function SubmitPayload(d: CaseFormData, initial: Option<Row>): (p: Row)
    ensures p.Keys == SubmitKeys
    ensures "demandados" in p && p["demandados"] == StrArr(ParseDemandados(d.demandados_csv))
    ensures "cedula_demandante" in p && p["cedula_demandante"] == Str(d.cedula_demandante)
    ensures "tipo" in p && p["tipo"] == Str(d.tipo)
    ensures "juzgado" in p && p["juzgado"] == Str(d.juzgado)
    ensures "numero_radicado" in p && p["numero_radicado"] == Str(d.numero_radicado)
    ensures "assigned_lawyer" in p && p["assigned_lawyer"] ==
      if initial.Some? then Coalesce(initial.value, "assigned_lawyer", Str("")) else Str("")
    ensures "id" in p && p["id"] == Str("")
    ensures "created_at" in p && p["created_at"] == Str("")
    ensures "updated_at" in p && p["updated_at"] == Str("")
  {
    var lawyer := if initial.Some? then Coalesce(initial.value, "assigned_lawyer", Str("")) else Str("");
    PayloadRow(d, StrArr(ParseDemandados(d.demandados_csv)), lawyer)
  }
}

=== FILE: cases_api.dfy ===
/**
 * The case repository (`src/lib/casesApi.ts`): the normalisation that turns
 * loosely shaped `cases` rows into full case records, the whitelisted insert
 * payload, and the create, update and delete calls over the `cases` table.
 */
module CasesApi {
  import opened Wrappers
  import opened JsValues
  import opened Backend

  /** The case types the client's types declare. */
  const CaseTipos: seq<string> := ["transito", "civil", "penal", "terrorista"]

  /** What `listCases` puts in place of a missing scalar field. */
  const ListDefaults: map<string, string> := map[
    "cedula_demandante" := "",
    "tipo" := "transito",
    "juzgado_tipo" := "regional",
    "juzgado_nombre" := "",
    "numero_radicado" := "",
    "assigned_lawyer" := "",
    "id" := "",
    "created_at" := "",
    "updated_at" := ""]

  /** The fields of a full case record. */
  const CaseKeys: set<string> := ListDefaults.Keys + {"demandados"}

  /** What `createCase` puts in place of a missing string field. */
  const InsertDefaults: map<string, string> := map[
    "cedula_demandante" := "",
    "tipo" := "transito",
    "juzgado_tipo" := "regional",
    "juzgado_nombre" := "",
    "numero_radicado" := ""]

  /** The only keys `createCase` sends to the backend. */
  const InsertKeys: set<string> := InsertDefaults.Keys + {"demandados", "assigned_lawyer"}

  /** A backend row whose columns hold what the table declares: strings or null,
      and for `demandados` a text array, a single text, or null. */
  predicate IsTypedRow(c: Row) {
    && (forall k :: k in ListDefaults && k in c ==> c[k].Null? || c[k].Str?)
    && ("demandados" in c ==>
          c["demandados"].Null? || c["demandados"].Str? ||
          (c["demandados"].Arr? && AllStr(c["demandados"].items)))
  }

  /** A full case record: every field present, strings where strings are declared
      and a list of strings for the defendants. */
  predicate IsCaseRecord(r: Row) {
    && (forall k :: k in ListDefaults ==> k in r && r[k].Str?)
    && "demandados" in r && r["demandados"].Arr? && AllStr(r["demandados"].items)
  }

  /** A string field of a case record. */
  function Text(r: Row, k: string): (t: string)
    requires IsCaseRecord(r) && k in ListDefaults
    ensures r[k] == Str(t)
  {
    r[k].s
  }

  /** The defendants of a case record. */
  function Demandados(r: Row): (xs: seq<string>)
    requires IsCaseRecord(r)
    ensures StrArr(xs) == r["demandados"]
  {
    Strings(r["demandados"].items)
  }

  // ---------------------------------------------------------------- listCases

  /** The `demandados` field as `listCases` rewrites it: an array is kept, a
      truthy value becomes a one-element array of its string form, and a falsy
      or missing value becomes the empty array. */
  function NormalizeDemandados(v: Option<Json>): (r: Json)
    ensures r.Arr?
    ensures v.Some? && v.value.Arr? ==> r == v.value
    ensures v.Some? && !v.value.Arr? && Truthy(v.value) ==> r == Arr([Str(ToStr(v.value))])
    ensures v.None? || !Truthy(v.value) ==> r == Arr([])
  {
    if v.Some? && v.value.Arr? then v.value
    else if v.Some? && Truthy(v.value) then Arr([Str(ToStr(v.value))])
    else Arr([])
  }

  /** One row of `listCases`: the spread `...c` followed by the ten field rewrites. */
  function NormalizeRow(c: Row): (r: Row)
    ensures r.Keys == c.Keys + CaseKeys
    ensures forall k :: k in c && k !in CaseKeys ==> r[k] == c[k]
    ensures "demandados" in r && r["demandados"] == NormalizeDemandados(Get(c, "demandados"))
    ensures forall k :: k in ListDefaults && k in c && !c[k].Null? ==> r[k] == c[k]
    ensures forall k :: k in ListDefaults && (k !in c || c[k].Null?) ==> r[k] == Str(ListDefaults[k])
  {
    c + map k | k in CaseKeys ::
      if k == "demandados" then NormalizeDemandados(Get(c, "demandados"))
      else Coalesce(c, k, Str(ListDefaults[k]))
  }

  /** Normalising never leaves a field null or missing, and never leaves the
      defendants a scalar. */
  lemma NormalizeTotal(c: Row)
    ensures CaseKeys <= NormalizeRow(c).Keys
    ensures NormalizeRow(c)["demandados"].Arr?
    ensures forall k :: k in ListDefaults ==> !NormalizeRow(c)[k].Null?
  {
    var r := NormalizeRow(c);
    forall k | k in ListDefaults ensures !r[k].Null? {
      assert k in c && !c[k].Null? ==> r[k] == c[k];
    }
  }

  /** A row with the declared column types normalises to a full case record. */
  lemma NormalizeTyped(c: Row)
    requires IsTypedRow(c)
    ensures IsCaseRecord(NormalizeRow(c))
  {
    var r := NormalizeRow(c);
    forall k | k in ListDefaults ensures k in r && r[k].Str? {
      if k in c && !c[k].Null? {
        assert c[k].Str?;
      }
    }
  }

  /** Normalising a normalised row changes nothing. */
  lemma NormalizeIdempotent(c: Row)
    ensures NormalizeRow(NormalizeRow(c)) == NormalizeRow(c)
  {
    var r := NormalizeRow(c);
    var rr := NormalizeRow(r);
    NormalizeTotal(c);
    forall k | k in rr ensures k in r && rr[k] == r[k] {
      if k == "demandados" {
      } else if k in ListDefaults {
        assert !r[k].Null?;
      }
    }
  }

  /** The creation timestamp of a row, when it holds one as text. */
  function CreatedAt(row: Row): (t: Option<string>)
    ensures t.Some? <==> "created_at" in row && row["created_at"].Str?
    ensures t.Some? ==> row["created_at"] == Str(t.value)
  {
    if "created_at" in row && row["created_at"].Str? then Some(row["created_at"].s) else None
  }

  /** `order` lists every stored case exactly once, newest first by
      `order('created_at', { ascending: false })`; rows without a textual
      timestamp, and rows with equal ones, may come anywhere the backend puts them. */
  ghost predicate IsCaseListing(cases: map<string, Row>, order: seq<string>) {
    && (forall i, j :: 0 <= i < j < |order| ==> order[i] != order[j])
    && (forall i :: 0 <= i < |order| ==> order[i] in cases)
    && (forall id :: id in cases ==> id in order)
    && (forall i, j ::
          0 <= i < j < |order| && order[i] in cases && order[j] in cases &&
          CreatedAt(cases[order[i]]).Some? && CreatedAt(cases[order[j]]).Some?
          ==> StrLe(CreatedAt(cases[order[j]]).value, CreatedAt(cases[order[i]]).value))
  }

  /** `listCases`: either the backend error, or every stored case, normalised,
      in the backend's order. */
  function ListCases(db: Store, order: seq<string>, fault: Option<string>): (r: Result<seq<Row>, Failure>)
    reads db
    requires IsCaseListing(db.cases, order)
    ensures r.Failure? <==> fault.Some?
    ensures r.Failure? ==> r.error == Rejected(fault.value)
    ensures r.Success? ==> |r.value| == |order|
    ensures r.Success? ==> forall i :: 0 <= i < |order| ==> r.value[i] == NormalizeRow(db.cases[order[i]])
  {
    if fault.Some? then Failure(Rejected(fault.value))
    else
      var cases := db.cases;
      var rows := seq(|order|, i requires 0 <= i < |order| => NormalizeRow(cases[order[i]]));
      Success(rows)
  }

  /** No stored case is missing from a successful listing. */
  lemma ListCasesComplete(db: Store, order: seq<string>, id: string)
    requires IsCaseListing(db.cases, order)
    requires id in db.cases
    ensures NormalizeRow(db.cases[id]) in ListCases(db, order, None).value
  {
    var rows := ListCases(db, order, None).value;
    assert id in order;
    var i :| 0 <= i < |order| && order[i] == id;
    assert rows[i] == NormalizeRow(db.cases[id]);
  }

  /** In a table keyed by id, every listed row carries the id it is stored
      under, so a row taken from the listing names its own case. */
  lemma ListCasesKeyed(db: Store, order: seq<string>)
    requires db.Valid() && IsCaseListing(db.cases, order)
    ensures forall i :: 0 <= i < |order| ==>
      var row := ListCases(db, order, None).value[i];
      "id" in row && row["id"] == Str(order[i]) && order[i] in db.cases
  {
    assert "id" in ListDefaults;
  }

  /** Normalisation keeps a stored textual timestamp, so those rows come back
      newest first. A row stored without one is listed with `''` wherever the
      backend put it. */
  lemma ListCasesNewestFirst(db: Store, order: seq<string>)
    requires IsCaseListing(db.cases, order)
    ensures var rows := ListCases(db, order, None).value;
      forall i, j ::
        0 <= i < j < |rows| && CreatedAt(db.cases[order[i]]).Some? && CreatedAt(db.cases[order[j]]).Some?
        ==> (CreatedAt(rows[i]).Some? && CreatedAt(rows[j]).Some? &&
             StrLe(CreatedAt(rows[j]).value, CreatedAt(rows[i]).value))
  {
    var rows := ListCases(db, order, None).value;
    forall i | 0 <= i < |rows| && CreatedAt(db.cases[order[i]]).Some?
      ensures CreatedAt(rows[i]) == CreatedAt(db.cases[order[i]])
    {
      NormalizeKeepsCreatedAt(db.cases[order[i]]);
    }
  }

  /** Normalisation keeps a textual timestamp. */
  lemma NormalizeKeepsCreatedAt(c: Row)
    ensures CreatedAt(c).Some? ==> CreatedAt(NormalizeRow(c)) == CreatedAt(c)
  {
    assert "created_at" in ListDefaults;
  }

  /** When the table holds typed rows, every listed case is a full case record. */
  lemma ListCasesTyped(db: Store, order: seq<string>)
    requires IsCaseListing(db.cases, order)
    requires forall id :: id in db.cases ==> IsTypedRow(db.cases[id])
    ensures ListCases(db, order, None).Success?
    ensures forall i :: 0 <= i < |order| ==> IsCaseRecord(ListCases(db, order, None).value[i])
  {
    forall i | 0 <= i < |order| ensures IsCaseRecord(ListCases(db, order, None).value[i]) {
      NormalizeTyped(db.cases[order[i]]);
    }
  }

  // --------------------------------------------------------------- createCase

  /** The `clean` object of `createCase`: exactly the seven whitelisted keys,
      with `??` defaults for all but `assigned_lawyer`, which the caller must supply. */
  function CleanPayload(payload: Row): (clean: Row)
    requires "assigned_lawyer" in payload && !payload["assigned_lawyer"].Null?
    ensures clean.Keys == InsertKeys
    ensures clean["assigned_lawyer"] == payload["assigned_lawyer"]
    ensures clean["demandados"] == Coalesce(payload, "demandados", Arr([]))
    ensures forall k :: k in InsertDefaults && k in payload && !payload[k].Null? ==> clean[k] == payload[k]
    ensures forall k :: k in InsertDefaults && (k !in payload || payload[k].Null?) ==> clean[k] == Str(InsertDefaults[k])
  {
    map k | k in InsertKeys ::
      if k == "assigned_lawyer" then payload[k]
      else if k == "demandados" then Coalesce(payload, k, Arr([]))
      else Coalesce(payload, k, Str(InsertDefaults[k]))
  }

  /** The row the backend stores for an insert: the payload plus the id and
      timestamps it assigns. */
  function InsertedRow(clean: Row, newId: string, now: string): (row: Row)
    ensures row.Keys == clean.Keys + {"id", "created_at", "updated_at"}
    ensures row["id"] == Str(newId)
    ensures forall k :: k in clean && k !in {"id", "created_at", "updated_at"} ==> row[k] == clean[k]
  {
    clean + map["id" := Str(newId), "created_at" := Str(now), "updated_at" := Str(now)]
  }

  /** `createCase`: inserts the clean payload under a backend-assigned id. */
  method CreateCase(db: Store, payload: Row, newId: string, now: string, fault: Option<string>)
    returns (r: Result<Row, Failure>)
    requires db.Valid()
    requires "assigned_lawyer" in payload && !payload["assigned_lawyer"].Null?
    modifies db
    ensures db.Valid()
    ensures db.actuaciones == old(db.actuaciones) && db.bucket == old(db.bucket)
    ensures fault.Some? ==> r == Failure(Rejected(fault.value)) && db.cases == old(db.cases)
    ensures fault.None? && newId in old(db.cases) ==> r == Failure(Conflict) && db.cases == old(db.cases)
    ensures fault.None? && newId !in old(db.cases) ==>
      && r == Success(InsertedRow(CleanPayload(payload), newId, now))
      && db.cases == old(db.cases)[newId := r.value]
  {
    var clean := CleanPayload(payload);
    if fault.Some? {
      return Failure(Rejected(fault.value));
    }
    if newId in db.cases {
      return Failure(Conflict);
    }
    var row := InsertedRow(clean, newId, now);
    db.cases := db.cases[newId := row];
    r := Success(row);
  }

  // --------------------------------------------------------- update and delete

  /** The id a row has once `patch` is merged into the row stored under `id`:
      the patch's own `id` when it carries one, otherwise `id`. */
  function KeyAfter(id: string, patch: Row): (k: string)
    requires "id" in patch ==> patch["id"].Str?
    ensures "id" in patch ==> patch["id"] == Str(k)
    ensures "id" !in patch ==> k == id
  {
    if "id" in patch then patch["id"].s else id
  }

  /** `updateCase`: the patch is forwarded as it is and merged into the one row
      with the given id; `.single()` fails when there is no such row. An `id`
      in the patch is written like any other column, so the row moves to that
      key; the key must be text and must not belong to another case. */
  method UpdateCase(db: Store, id: string, patch: Row, fault: Option<string>)
    returns (r: Result<Row, Failure>)
    requires db.Valid()
    modifies db
    ensures db.Valid()
    ensures db.actuaciones == old(db.actuaciones) && db.bucket == old(db.bucket)
    ensures fault.Some? ==> r == Failure(Rejected(fault.value)) && db.cases == old(db.cases)
    ensures fault.None? && id !in old(db.cases) ==> r == Failure(NotSingle) && db.cases == old(db.cases)
    ensures fault.None? && id in old(db.cases) && "id" in patch && !patch["id"].Str? ==>
      r == Failure(BadValue) && db.cases == old(db.cases)
    ensures fault.None? && id in old(db.cases) && ("id" in patch ==> patch["id"].Str?) ==>
      var k := KeyAfter(id, patch);
      if k != id && k in old(db.cases) then
        r == Failure(Conflict) && db.cases == old(db.cases)
      else
        && r == Success(old(db.cases)[id] + patch)
        && db.cases == (old(db.cases) - {id})[k := r.value]
  {
    if fault.Some? {
      return Failure(Rejected(fault.value));
    }
    if id !in db.cases {
      return Failure(NotSingle);
    }
    if "id" in patch && !patch["id"].Str? {
      return Failure(BadValue);
    }
    var k := KeyAfter(id, patch);
    if k != id && k in db.cases {
      return Failure(Conflict);
    }
    var row := db.cases[id] + patch;
    db.cases := (db.cases - {id})[k := row];
    r := Success(row);
  }

  /** `deleteCase`: removes the one id from `cases`; the case's actuaciones stay. */
  method DeleteCase(db: Store, id: string, fault: Option<string>) returns (r: Result<(), Failure>)
    requires db.Valid()
    modifies db
    ensures db.Valid()
    ensures db.actuaciones == old(db.actuaciones) && db.bucket == old(db.bucket)
    ensures fault.Some? ==> r == Failure(Rejected(fault.value)) && db.cases == old(db.cases)
    ensures fault.None? ==> r == Success(()) && db.cases == old(db.cases) - {id}
  {
    if fault.Some? {
      return Failure(Rejected(fault.value));
    }
    db.cases := db.cases - {id};
    r := Success(());
  }
}

=== FILE: cases_page.dfy ===
/**
 * The cases page: whether the case form is open, which case it edits (none
 * when it creates one), and the submit handler that sends the form's payload
 * to `createCase` or `updateCase`.
 */
module CasesPage {
  import opened Wrappers
  import opened JsValues
  import opened Backend
  import opened CasesApi
  import CaseForm

  /** `data ?? []`: the rows the table shows. */
  function Rows(data: Option<seq<Row>>): (rows: seq<Row>)
    ensures data.Some? ==> rows == data.value
    ensures data.None? ==> rows == []
  {
    data.GetOr([])
  }

  /** Once the listing has loaded, the table shows every case in the table,
      normalised, and nothing else. */
  lemma RowsShowEveryCase(db: Store, order: seq<string>, id: string)
    requires IsCaseListing(db.cases, order)
    requires id in db.cases
    ensures NormalizeRow(db.cases[id]) in Rows(Some(ListCases(db, order, None).value))
    ensures |Rows(Some(ListCases(db, order, None).value))| == |db.cases|
  {
    ListCasesComplete(db, order, id);
    ListingCount(db.cases, order);
  }

  /** A listing names every case exactly once. */
  lemma ListingCount(cases: map<string, Row>, order: seq<string>)
    requires IsCaseListing(cases, order)
    ensures |order| == |cases|
  {
    var ids := set i | 0 <= i < |order| :: order[i];
    assert ids == cases.Keys;
    DistinctCount(order);
  }

  /** A sequence without repetitions has as many elements as its set. */
  lemma {:induction false} DistinctCount(xs: seq<string>)
    requires forall i, j :: 0 <= i < j < |xs| ==> xs[i] != xs[j]
    ensures |set i | 0 <= i < |xs| :: xs[i]| == |xs|
  {
    if xs != [] {
      var init := xs[..|xs| - 1];
      DistinctCount(init);
      var s := set i | 0 <= i < |init| :: init[i];
      assert (set i | 0 <= i < |xs| :: xs[i]) == s + {xs[|xs| - 1]};
      assert xs[|xs| - 1] !in s;
    }
  }

  /** The form's payload with `assigned_lawyer` set to the signed-in user. */
  function StampLawyer(form: Row, userId: string): (p: Row)
    ensures p.Keys == form.Keys + {"assigned_lawyer"}
    ensures p["assigned_lawyer"] == Str(userId)
    ensures forall k :: k in form && k != "assigned_lawyer" ==> p[k] == form[k]
  {
    form["assigned_lawyer" := Str(userId)]
  }

  /** The clean insert payload of any form payload: the seven whitelisted
      keys, the form's texts and defendants, the user as lawyer, and the
      court's tier and name at their defaults whatever the form held. */
  lemma CreateFromPayload(p: Row, userId: string)
    requires p.Keys == CaseForm.SubmitKeys
    requires forall k :: k in p ==> !p[k].Null?
    ensures var clean := CleanPayload(StampLawyer(p, userId));
      && clean.Keys == InsertKeys
      && "juzgado" !in clean
      && clean["juzgado_nombre"] == Str("")
      && clean["juzgado_tipo"] == Str("regional")
      && clean["assigned_lawyer"] == Str(userId)
      && (forall k :: k in {"cedula_demandante", "tipo", "numero_radicado", "demandados"} ==> clean[k] == p[k])
  {
    var stamped := StampLawyer(p, userId);
    assert "juzgado_nombre" !in stamped && "juzgado_tipo" !in stamped;
  }

  /** Creating a case from the form: the clean payload holds what was typed and
      the user as lawyer, but the court name typed in the form is lost, because
      the form sends it as `juzgado` and the insert only copies `juzgado_nombre`. */
  lemma CreateFromForm(d: CaseForm.CaseFormData, userId: string)
    ensures var clean := CleanPayload(StampLawyer(CaseForm.SubmitPayload(d, None), userId));
      && clean.Keys == InsertKeys
      && "juzgado" !in clean
      && "juzgado_nombre" in clean && clean["juzgado_nombre"] == Str("")
      && "juzgado_tipo" in clean && clean["juzgado_tipo"] == Str("regional")
      && "cedula_demandante" in clean && clean["cedula_demandante"] == Str(d.cedula_demandante)
      && "tipo" in clean && clean["tipo"] == Str(d.tipo)
      && "numero_radicado" in clean && clean["numero_radicado"] == Str(d.numero_radicado)
      && "demandados" in clean && clean["demandados"] == StrArr(CaseForm.ParseDemandados(d.demandados_csv))
      && "assigned_lawyer" in clean && clean["assigned_lawyer"] == Str(userId)
  {
    CreateFromPayload(CaseForm.SubmitPayload(d, None), userId);
  }

  /** Merging any form payload into a case record: the form's fields replace
      the record's, the record's other fields stay. */
  lemma EditFromPayload(e: Row, p: Row)
    requires IsCaseRecord(e)
    requires p.Keys == CaseForm.SubmitKeys
    ensures forall k :: k in CaseForm.SubmitKeys ==> (e + p)[k] == p[k]
    ensures (e + p)["juzgado_nombre"] == e["juzgado_nombre"]
    ensures (e + p)["juzgado_tipo"] == e["juzgado_tipo"]
  {
  }

  /** Editing a case through the form: the patch is merged as it is, so the
      typed fields replace the old ones, the lawyer stays, the court name lands
      in a `juzgado` field while `juzgado_nombre` keeps its old value, and the
      id and timestamps in the row become `''`. */
  lemma EditFromForm(e: Row, d: CaseForm.CaseFormData)
    requires IsCaseRecord(e)
    ensures var merged := e + CaseForm.SubmitPayload(d, Some(e));
      && "cedula_demandante" in merged && merged["cedula_demandante"] == Str(d.cedula_demandante)
      && "tipo" in merged && merged["tipo"] == Str(d.tipo)
      && "numero_radicado" in merged && merged["numero_radicado"] == Str(d.numero_radicado)
      && "demandados" in merged && merged["demandados"] == StrArr(CaseForm.ParseDemandados(d.demandados_csv))
      && "assigned_lawyer" in merged && merged["assigned_lawyer"] == e["assigned_lawyer"]
      && "juzgado" in merged && merged["juzgado"] == Str(d.juzgado)
      && "juzgado_nombre" in merged && merged["juzgado_nombre"] == e["juzgado_nombre"]
      && "juzgado_tipo" in merged && merged["juzgado_tipo"] == e["juzgado_tipo"]
      && "id" in merged && merged["id"] == Str("")
      && "created_at" in merged && merged["created_at"] == Str("")
      && "updated_at" in merged && merged["updated_at"] == Str("")
  {
    EditFromPayload(e, CaseForm.SubmitPayload(d, Some(e)));
  }

  /** The edit payload carries `id: ''`, so an update through the form moves
      the case to the key `''`; once one case sits there, editing any other
      case through the form fails with `Conflict`. */
  lemma EditMovesToBlankKey(e: Row, d: CaseForm.CaseFormData)
    requires IsCaseRecord(e)
    ensures var p := CaseForm.SubmitPayload(d, Some(e));
      "id" in p && p["id"].Str? && KeyAfter(Text(e, "id"), p) == ""
  {
  }

  /** What a submit of the case form ended in. */
  datatype Outcome =
    | NoUser                // nobody is signed in; nothing was sent
    | Failed(error: Failure)
    | Saved(row: Row)

  class Page {
    var openForm: bool
    var editing: Option<Row>  // None is `null`

    /** The case being edited is one the listing showed. */
    ghost predicate Valid()
      reads this
    {
      editing.Some? ==> IsCaseRecord(editing.value)
    }

    constructor ()
      ensures Valid()
      ensures !openForm && editing == None
    {
      openForm := false;
      editing := None;
    }

    /** `onCreate`: the form opens empty, creating. */
    method OnCreate()
      modifies this
      ensures Valid()
      ensures openForm && editing == None
    {
      editing := None;
      openForm := true;
    }

    /** `onEdit`: the form opens on the row. */
    method OnEdit(row: Row)
      requires IsCaseRecord(row)
      modifies this
      ensures Valid()
      ensures openForm && editing == Some(row)
    {
      editing := Some(row);
      openForm := true;
    }

    /** The form's `onClose`: it closes; the edited case is kept. */
    method OnClose()
      requires Valid()
      modifies this
      ensures Valid()
      ensures !openForm && editing == old(editing)
    {
      openForm := false;
    }

    /** The delete button of a row; the form's state is not touched. */
    method OnDeleteRow(db: Store, id: string, fault: Option<string>) returns (r: Result<(), Failure>)
      requires db.Valid()
      modifies db
      ensures db.Valid()
      ensures db.actuaciones == old(db.actuaciones) && db.bucket == old(db.bucket)
      ensures fault.Some? ==> r == Failure(Rejected(fault.value)) && db.cases == old(db.cases)
      ensures fault.None? ==> r == Success(()) && db.cases == old(db.cases) - {id}
    {
      r := DeleteCase(db, id, fault);
    }

    /** The form's `onSubmit`: nothing without a signed-in user; otherwise the
        payload updates the edited case as it is, or creates a case with the
        user as its lawyer. The form closes only when the call succeeds; the
        edited case stays whatever it was. */
    method OnSubmit(db: Store, user: Option<string>, form: Row, newId: string, now: string, fault: Option<string>)
      returns (r: Outcome)
      requires Valid() && db.Valid()
      modifies this, db
      ensures Valid() && db.Valid()
      ensures editing == old(editing)
      ensures db.actuaciones == old(db.actuaciones) && db.bucket == old(db.bucket)
      ensures user.None? ==> r == NoUser
      ensures r.NoUser? || r.Failed? ==> openForm == old(openForm) && db.cases == old(db.cases)
      ensures r.Saved? ==> !openForm
      ensures user.Some? && fault.Some? ==> r == Failed(Rejected(fault.value))
      ensures user.Some? && fault.None? && old(editing).Some? ==>
        var id := Text(old(editing).value, "id");
        if id !in old(db.cases) then r == Failed(NotSingle)
        else if "id" in form && !form["id"].Str? then r == Failed(BadValue)
        else if KeyAfter(id, form) != id && KeyAfter(id, form) in old(db.cases) then r == Failed(Conflict)
        else
          && r == Saved(old(db.cases)[id] + form)
          && db.cases == (old(db.cases) - {id})[KeyAfter(id, form) := r.row]
      ensures user.Some? && fault.None? && old(editing).None? ==>
        if newId in old(db.cases) then r == Failed(Conflict)
        else
          && r == Saved(InsertedRow(CleanPayload(StampLawyer(form, user.value)), newId, now))
          && db.cases == old(db.cases)[newId := r.row]
    {
      if user.None? {
        return NoUser;
      }
      var res: Result<Row, Failure>;
      if editing.Some? {
        res := UpdateCase(db, Text(editing.value, "id"), form, fault);
      } else {
        res := CreateCase(db, StampLawyer(form, user.value), newId, now, fault);
      }
      if res.Failure? {
        return Failed(res.error);
      }
      openForm := false;
      r := Saved(res.value);
    }
  }
}

=== FILE: js_values.dfy ===
/**
 * The JavaScript values that cross the boundary between the client and the
 * hosted backend, together with the few JavaScript operators the client
 * applies to them: truthiness, `??`, `String(v)` and the decimal rendering of
 * a number.
 */
module JsValues {
  import opened Wrappers

  /** A JSON-like JavaScript value. Numbers are integers (see README). */
  datatype Json =
    | Null
    | Bool(b: bool)
    | Num(n: int)
    | Str(s: string)
    | Arr(items: seq<Json>)
    | Obj(fields: map<string, Json>)

  /** A plain JavaScript object, such as a backend row; an absent key is `undefined`. */
  type Row = map<string, Json>

  /** `o.k`, with `None` standing for `undefined`. */
  function Get(o: Row, k: string): (r: Option<Json>)
    ensures r.Some? <==> k in o
    ensures r.Some? ==> r.value == o[k]
  {
    if k in o then Some(o[k]) else None
  }

  /** `o.k ?? d`: only `null` and `undefined` are replaced. */
  function Coalesce(o: Row, k: string, d: Json): (r: Json)
    ensures k in o && !o[k].Null? ==> r == o[k]
    ensures (k !in o || o[k].Null?) ==> r == d
  {
    if k in o && !o[k].Null? then o[k] else d
  }

  /** JavaScript truthiness: `null`, `false`, `0` and `''` are falsy; every
      array and object, even an empty one, is truthy. */
  predicate Truthy(v: Json): (ok: bool)
    ensures ok <==> v !in {Null, Bool(false), Num(0), Str("")}
  {
    match v
    case Null => false
    case Bool(b) => b
    case Num(n) => n != 0
    case Str(s) => s != ""
    case Arr(_) => true
    case Obj(_) => true
  }

  function DigitChar(d: nat): (c: char)
    requires d < 10
    ensures '0' <= c <= '9'
  {
    ['0', '1', '2', '3', '4', '5', '6', '7', '8', '9'][d]
  }

  /** The decimal rendering of a natural number, as `String(n)` gives it. */
  function NatToDecimal(n: nat): (r: string)
    ensures |r| >= 1
    ensures forall i :: 0 <= i < |r| ==> '0' <= r[i] <= '9'
    ensures n < 10 ==> |r| == 1
  {
    if n < 10 then [DigitChar(n)] else NatToDecimal(n / 10) + [DigitChar(n % 10)]
  }

  /** The last digit is `n % 10` and what precedes it renders `n / 10`. */
  lemma NatToDecimalLast(n: nat)
    ensures NatToDecimal(n)[|NatToDecimal(n)| - 1] == DigitChar(n % 10)
    ensures n >= 10 ==> |NatToDecimal(n)| >= 2
    ensures n >= 10 ==> NatToDecimal(n)[..|NatToDecimal(n)| - 1] == NatToDecimal(n / 10)
  {
  }

  lemma DigitCharInjective(x: nat, y: nat)
    requires x < 10 && y < 10 && DigitChar(x) == DigitChar(y)
    ensures x == y
  {
  }

  /** Distinct numbers render to distinct strings. */
  lemma {:induction false} NatToDecimalInjective(a: nat, b: nat)
    requires NatToDecimal(a) == NatToDecimal(b)
    ensures a == b
  {
    NatToDecimalLast(a);
    NatToDecimalLast(b);
    DigitCharInjective(a % 10, b % 10);
    if a >= 10 && b >= 10 {
      NatToDecimalInjective(a / 10, b / 10);
      assert a == 10 * (a / 10) + a % 10;
      assert b == 10 * (b / 10) + b % 10;
    }
  }

  /** `String(n)` for an integer. */
  function IntToDecimal(n: int): (r: string)
    ensures |r| >= 1
    ensures n >= 0 ==> r == NatToDecimal(n)
    ensures n < 0 ==> r == "-" + NatToDecimal(-n)
  {
    if n >= 0 then NatToDecimal(n) else "-" + NatToDecimal(-n)
  }

  /** `String(v)` for a value that is not an array (arrays never reach it in this model). */
  function ToStr(v: Json): (r: string)
    requires !v.Arr?
    ensures v.Str? ==> r == v.s
    ensures v.Num? ==> r == IntToDecimal(v.n)
    ensures v.Null? ==> r == "null"
    ensures v.Bool? ==> r == (if v.b then "true" else "false")
    ensures v.Obj? ==> r == "[object Object]"
  {
    match v
    case Null => "null"
    case Bool(b) => if b then "true" else "false"
    case Num(n) => IntToDecimal(n)
    case Str(s) => s
    case Obj(_) => "[object Object]"
  }

  /** `s.length`: JavaScript counts UTF-16 code units, so a character outside
      the Basic Multilingual Plane counts twice. */
  function Utf16Length(s: string): (n: nat)
    ensures |s| <= n <= 2 * |s|
    ensures n == |s| <==> forall i :: 0 <= i < |s| ==> s[i] as int <= 0xFFFF
    ensures n == 2 * |s| <==> forall i :: 0 <= i < |s| ==> s[i] as int > 0xFFFF
  {
    if s == [] then 0 else (if s[0] as int > 0xFFFF then 2 else 1) + Utf16Length(s[1..])
  }

  /** A single character is one code unit up to U+FFFF and two above. */
  lemma Utf16LengthChar(c: char)
    ensures Utf16Length([c]) == if c as int > 0xFFFF then 2 else 1
  {
    assert [c][1..] == [];
  }

  /** The code units of a concatenation are those of its parts. */
  lemma {:induction false} Utf16LengthAppend(a: string, b: string)
    ensures Utf16Length(a + b) == Utf16Length(a) + Utf16Length(b)
  {
    if a == [] {
      assert a + b == b;
    } else {
      assert (a + b)[0] == a[0] && (a + b)[1..] == a[1..] + b;
      Utf16LengthAppend(a[1..], b);
    }
  }

  /** A JavaScript array of strings. */
  function StrArr(xs: seq<string>): (r: Json)
    ensures r.Arr? && |r.items| == |xs|
    ensures forall i :: 0 <= i < |xs| ==> r.items[i] == Str(xs[i])
  {
    Arr(seq(|xs|, i requires 0 <= i < |xs| => Str(xs[i])))
  }

  /** Every element of an array value is a string. */
  predicate AllStr(items: seq<Json>) {
    forall i :: 0 <= i < |items| ==> items[i].Str?
  }

  /** The strings held by an array of strings; the inverse of `StrArr`. */
  function Strings(items: seq<Json>): (r: seq<string>)
    requires AllStr(items)
    ensures |r| == |items|
    ensures forall i :: 0 <= i < |items| ==> items[i] == Str(r[i])
    ensures StrArr(r) == Arr(items)
  {
    seq(|items|, i requires 0 <= i < |items| => items[i].s)
  }
}

=== FILE: wrappers.dfy ===
/** Optional values and results, used for JavaScript `undefined` and for thrown errors. */
module Wrappers {

  datatype Option<+T> = None | Some(value: T) {
    /** `x ?? d` for a value that is either present or absent. */
    function GetOr(default: T): T {
      match this
      case Some(v) => v
      case None => default
    }
  }

  datatype Result<+R, +E> = Success(value: R) | Failure(error: E)
}
